=== FILE: README.md ===
# ncloud-management, modelled in Dafny

ncloud-management switches two NAVER Cloud Platform (NCP) virtual servers
on and off and reports on them through Telegram. It has three parts, and
this project models each one.

- **The command bot** (`receive_telegram.py`) reads chat messages.
  - `/allstart` and `/allstop` act on every configured server.
  - `/start N`, `/stop N` and `/state N` act on the server with alias `N`.
  - `/도움말` prints the help text.
  - The bot signs each NCP API request with an HMAC keyed by the secret
    key. The signed string and a header both carry the access key. It
    classifies the JSON reply and answers in the chat.
- **The scheduled script** (`main.py`) is run as
  `script.py set on|off` or `script.py get running|stopped`.
  - On a Korean public holiday it prints `공휴일 종료` and stops.
  - Otherwise it acts on the two instances in a fixed order.
  - It prints each result.
  - It reports in Telegram. A status check reports only when a server is
    not in the expected state.
- **The Telegram helper** (`telegram_util.py`) builds the Bot API calls
  `sendMessage`, `sendPhoto` and `sendMediaGroup`. For an album it opens
  every file, posts them together and closes them again.

The model is one module per concern:

| file | module | what it holds |
|---|---|---|
| `common.dfy` | `Common` | Option and Result, and the Python exceptions the code meets |
| `text.dfy` | `Text` | The Python string operations used: `str.split()`, ASCII `lower()`, `startswith`, splitting on a character, decimal rendering |
| `query.dfy` | `UrlQuery` | Query strings (`path?k=v&...`) and their parser, with round-trip lemmas |
| `signing.dfy` | `Signing` | The NCP signature-v2 canonical string, its inverse, and the timestamp |
| `ncp_api.dfy` | `NcpApi` | The NCP query builders, the JSON reply shape, signed requests, HTTP replies, and the effect trace |
| `bot.dfy` | `Bot`, `BotProperties` | The command bot |
| `script.dfy` | `Script`, `ScriptProperties` | The scheduled script |
| `telegram.dfy` | `Telegram`, `TelegramProperties` | The Telegram helper |

What the programs do to the outside world is recorded as a trace of
effects:

- a signed HTTP GET request;
- a Telegram chat message;
- a line printed to standard output;
- an exception that nobody catches, which ends the program.

The NCP API is a function from request to reply, passed in as a
parameter. The same goes for the keyed hash, URL encoding, the file
system and the Telegram POST. So are the two clock readings a request is
built from: one for the timestamp header, and one taken inside the signing
function.

`NcpServerManager` is a class: its settings are constants and its trace
is a field that its methods extend. `TelegramUtil` is a class with
constant settings, and `FileHandle` is a class whose `isOpen` flag is
updated in place.

## Model

| member | source | states |
|---|---|---|
| `Text.Words` | receive_telegram.py:155 | `str.split()` yields only non-empty words with no whitespace in them; when the text does not start with whitespace, the first word is the text up to its first whitespace. How whitespace runs of any length separate the words is stated by `Text.WordsSkipSpace`, `Text.WordsOfWordThenSpace` and `Text.WordsOfSpacedJoin` |
| `Text.Lower` | receive_telegram.py:156 | `lower()` keeps the length and lowers each character on its own |
| `Text.WordsOfJoin` | receive_telegram.py:155 | Splitting a space-joined list of words gives the same list back |
| `Text.WordsSkipSpace` | receive_telegram.py:155 | `split()` drops leading whitespace of any length: `(sp + s).split() == s.split()` for a whitespace run `sp` |
| `Text.WordsOfWordThenSpace` | receive_telegram.py:155 | A word followed by a non-empty whitespace run of any length is one word, and the rest is split on its own |
| `Text.WordsOfSpacedJoin` | receive_telegram.py:155 | Words separated by non-empty whitespace runs of any length and kind, with any whitespace before and after, split back into exactly those words |
| `Text.LowerProperties` | receive_telegram.py:156 | `lower()` is idempotent and maps a word to a word |
| `Signing.CanonicalString` | receive_telegram.py:48 | The signed string `GET {query}\n{timestamp}\n{access key}` loses nothing: the query, timestamp and access key are read back from it when neither of the last two holds a newline |
| `Signing.Timestamp` | receive_telegram.py:44 | The epoch-milliseconds timestamp is a non-empty string with no newline |
| `Signing.SignedStringDeterminesInputs` | main.py:24-33 | Two requests sign the same string only if the query, the clock reading and the access key are all equal |
| `NcpApi.StartQueryTargets` | receive_telegram.py:101 | The start query parses back to the start path with JSON format and exactly the given instance |
| `NcpApi.StopQueryTargets` | receive_telegram.py:105 | The stop query parses back to the stop path with JSON format and exactly the given instance |
| `NcpApi.DetailQueryTargets` | receive_telegram.py:115 | The detail query parses back to the detail path with JSON format and exactly the given instance |
| `NcpApi.StartNeverStop` | receive_telegram.py:107-110 | A start query is never a stop query, whatever the instances |
| `NcpApi.FirstInstanceStatus` | main.py:60 | The status of the first listed instance. A missing list raises `KeyError('serverInstanceList')`, an empty one `IndexError`, and a missing status `KeyError('serverInstanceStatusName')` |
| `NcpApi.SignedRequest` | receive_telegram.py:55-66 | The request carries the query and the access key, and its timestamp header is the first clock reading. The gateway accepts its signature when the second reading, taken inside the signing function, is the same |
| `NcpApi.HeaderMatchesSignedString` | receive_telegram.py:43-63 | The string the gateway rebuilds from the headers is the string that was signed exactly when the header and signing clock readings agree |
| `Bot.MappingGet` | receive_telegram.py:170 | `SERVER_MAPPING.get(alias)` is `None` exactly when no entry has that alias, and otherwise returns the value of an entry with that alias |
| `Bot.ServerMappingWellFormed` | receive_telegram.py:15-18 | Every alias is a single word, and every instance number is a non-empty digit string |
| `Bot.Decide` | receive_telegram.py:152-156 | A message is ignored exactly when it does not start with `/` |
| `Bot.DecideCommand` | receive_telegram.py:158-182 | A command is always answered. `/start`, `/stop` and `/state` get the usage error exactly when they do not have one argument, and the invalid-server answer exactly when the alias is unmapped or maps to an empty value. Otherwise `/start` starts, `/stop` stops and `/state` queries the non-empty instance the alias maps to. A command outside the six is unknown |
| `Bot.ProcessResponse` | receive_telegram.py:83-90 | The message is the success text or a server-error text for the result key. A `responseError` is reported by its `returnMessage`. Otherwise an `error` is reported by its `message` alone. Otherwise a non-zero `returnCode` is reported by the result's `returnMessage`. With neither error object, a reply without the result key raises `KeyError` naming that key, and a result without `returnCode` raises `KeyError('returnCode')`. A missing `returnMessage` or `message` raises the `KeyError` naming it, and nothing else raises |
| `Bot.ProcessSuccessIff` | receive_telegram.py:83-90 | A start/stop reply is reported as success exactly when there is no `responseError`, no `error`, and the action's `returnCode` is "0" |
| `Bot.ProcessPrecedence` | receive_telegram.py:84-87 | `responseError` decides the message whatever else the reply holds; failing that, `error` decides it |
| `Bot.ActionQueryIsStartOrStop` | receive_telegram.py:107-110 | The query with the action spliced in is the start query or the stop query, and likewise for the result key |
| `Bot.ServerRequestEffects` | receive_telegram.py:55-81 | One signed GET for the query, then one chat message to the chat the command came from |
| `Bot.EachInstanceEffects` | receive_telegram.py:99-106 | A request and a report for each instance: two effects per instance |
| `Bot.SetStateEffects` | receive_telegram.py:98-112 | `allstart` and `allstop` make two effects per configured server. For any other action the trace is empty exactly when the action is not `start` or `stop` with a server number |
| `Bot.StateEffects` | receive_telegram.py:114-141 | One signed detail request for the instance, then one chat message to the same chat |
| `Bot.DecisionEffects` | receive_telegram.py:158-182 | A decision has no effect exactly when it is `Ignore` or a start or stop without an instance |
| `Bot.NcpServerManager.constructor` | receive_telegram.py:29-41 | The manager keeps the loaded keys and token and starts with an empty trace |
| `Bot.NcpServerManager.SendMessage` | receive_telegram.py:92-96 | One chat message is appended to the trace |
| `Bot.NcpServerManager.SendServerRequest` | receive_telegram.py:55-81 | Appends one signed GET and one chat message: a network error, a system error, or the classified reply prefixed with the server |
| `Bot.NcpServerManager.SetServerState` | receive_telegram.py:98-112 | The loop appends exactly the effects of one request per configured instance, in mapping order; a single start or stop needs a server number; any other action sends nothing |
| `Bot.NcpServerManager.GetServerState` | receive_telegram.py:114-141 | Appends one detail request and one chat message with the status, or with the error that was caught |
| `Bot.HandleMessage` | receive_telegram.py:143-187 | When a setting among the access key, secret key and bot token is missing or empty, the manager raises `ValueError` with the fixed text before anything is sent. Otherwise the trace is exactly the effects of the message's decision |
| `BotProperties.NonSlashIgnored` | receive_telegram.py:152-153 | A message is ignored exactly when it does not start with `/`, and an ignored message produces no effect at all |
| `BotProperties.CommandCaseInsensitive` | receive_telegram.py:155-156 | Upper-casing letters in the command word does not change the decision: `/START 1` is `/start 1` |
| `BotProperties.CommandWords` | receive_telegram.py:159-165 | The six command words are single lower-case words that start with `/` |
| `BotProperties.DispatchOfWords` | receive_telegram.py:155-182 | For `command arg1 arg2 ...`, the dispatch sees exactly that command and exactly those arguments |
| `BotProperties.DispatchOfSpacedWords` | receive_telegram.py:155-182 | The same when the words are separated by whitespace runs of any length and kind and followed by trailing whitespace |
| `BotProperties.DoubleSpaceStillStarts` | receive_telegram.py:155-176 | `/start  1`, with two spaces, starts the instance alias `1` maps to |
| `BotProperties.AnswerOnlyEffects` | receive_telegram.py:159-182 | Help, the usage error, an invalid server and an unknown command each send exactly one chat message: the help text, the usage text naming the command, or the fixed error text |
| `BotProperties.WholeFleetCommandsIgnoreArguments` | receive_telegram.py:159-164 | `/allstart`, `/allstop` and `/도움말` act the same whatever words follow them, and `/도움말` sends exactly the help text |
| `BotProperties.WrongArgumentCountIsUsageError` | receive_telegram.py:166-168 | `/start`, `/stop` or `/state` with other than exactly one argument sends exactly one chat message, the usage text naming that command |
| `BotProperties.AliasResolution` | receive_telegram.py:170-180 | With one mapped alias, `/start` starts, `/stop` stops and `/state` queries the instance the alias maps to. An unmapped alias sends exactly one chat message, the invalid-server-number text |
| `BotProperties.SingleCommandEffects` | receive_telegram.py:175-180 | For a mapped alias, `/start N` sends the start query for its instance and reads the reply under `startServerInstancesResponse`. `/stop N` does the same with the stop query and `stopServerInstancesResponse`. `/state N` sends the detail query and answers with the state report |
| `BotProperties.OneInstanceEffects` | receive_telegram.py:107-110 | Acting on one instance sends the start query read under the start result key, the stop query read under the stop result key, or the detail query |
| `BotProperties.OtherCommandsUnknown` | receive_telegram.py:181-182 | Any other slash command sends exactly one chat message, the fixed unknown-command text |
| `BotProperties.ServerRequestShape` | receive_telegram.py:55-72 | One request exchange sends exactly the query asked for and exactly one chat message, the report on that request |
| `BotProperties.ServerRequestReplies` | receive_telegram.py:66-81 | The report on one request: no reply, or an error status that `raise_for_status` raises on, gives the network-error text with no server prefix. A classified reply is prefixed `[N]` for server N, or `[all]` without one. An exception from the classification gives the system-error text |
| `BotProperties.StateRequestShape` | receive_telegram.py:114-136 | A state query sends exactly one detail request for the instance and one chat message |
| `BotProperties.StateReplies` | receive_telegram.py:126-141 | The answer to a state query. Any failure is the state-query error text. Otherwise the answer is prefixed with the instance and holds its status line, or the fixed text when the reply has no detail key |
| `BotProperties.EachInstanceRequests` | receive_telegram.py:99-106 | A whole-fleet action sends one request per instance, in order, with that instance's start or stop query. The chat messages follow in the same order, each the report on that instance under the start or stop result key |
| `BotProperties.DecisionRequests` | receive_telegram.py:158-180 | The requests each decision sends: none for answer-only decisions, one for the mapped instance, one per configured instance for the whole-fleet commands |
| `BotProperties.SlashCommandsAnswered` | receive_telegram.py:152-187 | Every slash command gets at least one chat answer |
| `Script.RunScript` | main.py:106-138 | On a holiday, a wrong argument count or a disallowed state, exactly one fixed line is printed and nothing is requested. An unknown method does nothing. A valid run acts on target 1 and then target 2, and stops if the first one crashed |
| `Script.SetAction` | main.py:75-80 | "on" and only "on" selects the start query and result key; every other state selects the stop query and key |
| `Script.ClassifySet` | main.py:90-101 | Every message is a bracketed tag with the result key. `발생1`: a `responseError`, reported by its `returnMessage`. `발생2`: an `error`, reported by its `message`, a space and its `details`. `발생3`: a non-zero `returnCode`, reported by the result's `returnMessage`. With neither error object, a reply without the result key raises `KeyError` naming it, and a result without `returnCode` raises `KeyError('returnCode')`. Only a missing `returnMessage`, `message`, `details`, result key or `returnCode` raises, as a `KeyError` |
| `Script.ClassifyGet` | main.py:49-64 | The same three tags, reporting the same fields. With `returnCode` "0", the result is "ok" when the first instance has the expected status; otherwise it is the status warning naming the expected status, then the current one. With neither error object, a reply without `getServerInstanceDetailResponse` raises `KeyError` naming it, and a result without `returnCode` raises `KeyError('returnCode')`. Only a missing field on the way, or an empty instance list (`IndexError`), raises |
| `Script.SetTargetEffects` | main.py:70-104 | One signed request with the selected query. Then either the exception that ends the script, or the printed message and the same message to the chat prefixed with the target |
| `Script.GetTargetEffects` | main.py:35-68 | One signed detail request. Then either the exception that ends the script, or the printed message, sent to the chat with the target prefix exactly when it is not "ok" |
| `ScriptProperties.SetActionTargets` | main.py:75-80 | The query a `set` sends parses back to the selected action's path and exactly the given instance |
| `ScriptProperties.ClassifySetSuccessIff` | main.py:91-101 | A `set` reports success exactly when there is no `responseError`, no `error`, and the action's `returnCode` is "0" |
| `ScriptProperties.ClassifyGetOkIff` | main.py:50-64 | A status check yields "ok" exactly when there is no error object, `returnCode` is "0", and the first instance reports the expected status |
| `ScriptProperties.ClassifyPrecedence` | main.py:91-96 | `responseError` decides the message, then `error`; `error.message` is read before `error.details` |
| `ScriptProperties.MalformedSetReplyEndsRun` | main.py:97-131 | A reply to target 1 with no error object that lacks the action's result, or whose result lacks `returnCode`, ends the script with that `KeyError`. Nothing is printed or sent, and target 2 is never requested |
| `ScriptProperties.SetTargetReports` | main.py:70-104 | One request per target with the selected action; then either a crash with no chat message, or exactly one chat message prefixed with the target |
| `ScriptProperties.ErrorStatusStillClassified` | main.py:89-104 | The script never checks the status: a 4xx or 5xx reply is classified and reported to the chat like any other |
| `ScriptProperties.GetTargetQuietIff` | main.py:35-68 | One detail request per target; the script crashes exactly when there is no reply or the classification raises; the chat stays silent exactly when it crashed or the target is in the expected state |
| `ScriptProperties.SetRunRequests` | main.py:126-131 | A `set` run requests target 1 and then, unless that crashed, target 2, each with the action the state selects |
| `ScriptProperties.SetRunTargets` | main.py:126-131 | Every request of a `set` run parses back to the selected action's path and the target it is for, target 1 first |
| `ScriptProperties.GetRunQuietIff` | main.py:133-138 | A `get` run sends no chat message and completes exactly when both targets are reachable and report the expected status |
| `ScriptProperties.GetRunRequests` | main.py:133-138 | A `get` run queries target 1 first and target 2 at most once after it |
| `Telegram.CloseAll` | telegram_util.py:84-85 | After the loop every handle in the list is closed |
| `Telegram.FirstFailure` | telegram_util.py:60-72 | Finds the first path whose open fails; every earlier path opens |
| `Telegram.FileKeyInjective` | telegram_util.py:72 | Distinct indices give distinct `photo{i}` form names |
| `Telegram.FileMapShape` | telegram_util.py:57-72 | `files` holds exactly one key `photo{i}` per opened file, mapped to the i-th handle, and no other key |
| `Telegram.AttachmentsResolve` | telegram_util.py:60-72 | One media entry per path. Every entry is a photo in html mode, the caption appears on entry 0 only, and entry i's `attach://` name is a key of `files` that holds the i-th handle |
| `Telegram.TelegramUtil.constructor` | telegram_util.py:12-16 | Token and chat ids come from the environment. The token and test chat id are rendered as "None" when missing, as the f-strings do, and the chat id is kept as read. The base URL is the Bot API prefix plus the token |
| `Telegram.TelegramUtil.MessageUrl` | telegram_util.py:18-21 | `send_message` calls `sendMessage` with exactly chat_id, parse_mode=html, disable_web_page_preview=true and the encoded text, in that order |
| `Telegram.TelegramUtil.TestMessageUrl` | telegram_util.py:47-50 | `send_test_message` calls the test chat with parse_mode=html and the encoded text only |
| `Telegram.TelegramUtil.UrlPhotoPost` | telegram_util.py:27-37 | A photo URL is posted to `sendPhoto` with no file. It has a `chat_id` field, first, exactly when the chat id is set, and the `photo` field last |
| `Telegram.TelegramUtil.SendPhoto` | telegram_util.py:25-45 | A photo starting with "http://" or "https://" is posted as the `photo` field with no file. A local path that fails to open raises `OSError`. Otherwise the file is uploaded, and the `chat_id` field is left out when the chat id is missing. The file is closed afterwards |
| `Telegram.TelegramUtil.SendMultiplePhoto` | telegram_util.py:52-93 | As written: if all paths open, one post carries the full media list and `files` map, and every handle is closed on both the success and the exception path. If the k-th open fails, `OSError` escapes and the k earlier handles stay open |
| `Telegram.TelegramUtil.SendMultiplePhotoClosing` | telegram_util.py:52-93 | Corrected: the same request and outcome, and no handle is left open on any path |
| `TelegramProperties.LeakOnSecondOpen` | telegram_util.py:72-74 | For an album whose second file fails to open, `OSError` escapes and the first file's handle is still open |
| `TelegramProperties.NoLeakOnSecondOpen` | telegram_util.py:89-92 | For the same album, the corrected method leaves no handle open |

## Left out

- The keyed hash: HMAC-SHA256 and base64 (receive_telegram.py:50-52, main.py:32) are the `Signer` parameter, and the signature header is its output.
- `NcpApi.SignedRequest`: every request of one run is built from the same two clock readings. The source reads the clock afresh for each request, so in the model successive requests of one run carry the same timestamp. The model promises that the gateway accepts the signature only when the two readings agree (`NcpApi.HeaderMatchesSignedString`).
- Logging (`LoggerUtil`), `load_dotenv`, and the `holidays` calendar. The holiday test is the boolean parameter of `Script.RunScript`.
- `main()` of receive_telegram.py, with the Updater, the polling loop and the handler registration, is not part of this model. Its filter `Filters.text & ~Filters.command` decides which messages reach `handle_message` at all; the model starts at `handle_message`.
- `send_message` of the bot catches `TelegramError` and logs it. The model treats every chat message as delivered.
- Exceptions other than those named in `Exn` are left out: a non-JSON body, JSON `null`, a field of the wrong type, or `bytes(None)` when main.py runs without keys. Neither the outer `except` of `handle_message` nor the system-error branch meets them in the model.
- `urllib.parse.quote_plus` and `json.dumps` are taken as given: the encoder is a parameter, and the media list is kept as a value.
- `urlopen` in telegram_util.py and the `requests.post` calls are left out as I/O. The model returns the URL or the request they receive, and for the posts the reply or the exception comes from a parameter. Failures of the chat sends in main.py are not modelled.
- `Text.Lower`: only ASCII letters are lowered; Python's non-ASCII case mappings are not modelled.
- `Text.LowerProperties`: `lower()` is modelled on ASCII letters only. Non-ASCII case mappings (which Python also applies) are not modelled. The fixed commands are ASCII or Hangul, which has no case.
- `SetServerState`'s error log for an invalid action is left out; the model records no effect for it.
- telegramBot.py is not part of this model; it repeats `send_message` and `send_photo`.

## Findings

| source | as written | input that shows it | evidently intended | confidence | as-written member | corrected member |
|---|---|---|---|---|---|---|
| telegram_util.py:72 | Every file is opened in the loop before the `try` at line 74, so an `OSError` from a later `open` escapes without closing the files opened before it | `send_multiple_photo(["a.jpg", "missing.jpg"])` where `a.jpg` exists and `missing.jpg` does not: `a.jpg`'s handle is left open | Close every opened file on every error path, as the handler at lines 89-92 does for errors after the opens | not executed | `Telegram.TelegramUtil.SendMultiplePhoto`, `TelegramProperties.LeakOnSecondOpen` | `Telegram.TelegramUtil.SendMultiplePhotoClosing`, `TelegramProperties.NoLeakOnSecondOpen` |

=== FILE: bot.dfy ===
/** The Telegram command bot (receive_telegram.py): it reads a chat
    message, decides which command it is, and starts, stops or queries
    the configured server instances, answering in the chat. */
module Bot {
  import opened Common
  import opened Text
  import opened Signing
  import opened NcpApi

  // ---------------------------------------------------------------- configuration

  /** Short alias to instance number, in insertion order. */
  const ServerMapping: seq<(string, string)> := [("1", "25741251"), ("2", "26055342")]

  /** `mapping.get(key)`: the value of the first entry with that key. */
  function MappingGet(m: seq<(string, string)>, key: string): (r: Option<string>)
    ensures r.None? <==> forall i :: 0 <= i < |m| ==> m[i].0 != key
    ensures r.Some? ==> exists i :: 0 <= i < |m| && m[i] == (key, r.value)
  {
    if m == [] then None
    else if m[0].0 == key then Some(m[0].1)
    else
      var r := MappingGet(m[1..], key);
      assert r.Some? ==> exists i :: 0 <= i < |m| && m[i] == (key, r.value) by {
        if r.Some? {
          var j :| 0 <= j < |m[1..]| && m[1..][j] == (key, r.value);
          assert m[j + 1] == (key, r.value);
        }
      }
      r
  }

  /** `mapping.values()`, in insertion order. */
  function MappingValues(m: seq<(string, string)>): seq<string>
  {
    seq(|m|, i requires 0 <= i < |m| => m[i].1)
  }

  /** Every configured instance number is a plain digit string. */
  lemma ServerMappingWellFormed()
    ensures forall i :: 0 <= i < |ServerMapping| ==> IsWord(ServerMapping[i].0)
    ensures forall i :: 0 <= i < |ServerMapping| ==> AllDigits(ServerMapping[i].1) && ServerMapping[i].1 != ""
  {
  }

  const HelpMessage: string :=
    "[도움말] 사용 가능한 명령어 목록입니다:\n\n"
    + "/도움말 - 사용 가능한 명령어 목록을 표시합니다.\n"
    + "/allstop - 실행 중인 모든 서버를 종료합니다.\n"
    + "/allstart - 모든 서버를 시작합니다.\n"
    + "/start [서버번호] - 특정 서버를 시작합니다. (예: /start 1)\n"
    + "/stop [서버번호] - 특정 서버를 종료합니다. (예: /stop 1)\n"
    + "/state [서버번호] - 특정 서버의 상태를 확인합니다. (예: /state 1)"

  const MissingEnvText: string := "필수 환경 변수가 설정되지 않았습니다."
  const InvalidServerText: string := "[에러] 유효하지 않은 서버 번호입니다."
  const UnknownCommandText: string := "[에러] 등록되지 않은 명령어입니다\n/도움말 을 확인해주세요"

  function UsageText(command: string): string
  {
    "[에러] 명령어를 올바르게 입력해주세요\n\n" + command + " 서버번호"
  }

  /** The settings the manager reads from its environment. */
  datatype Config = Config(accessKey: string, secretKey: string, telegramToken: string)

  /** The manager's set-up: all three settings must be present and non-empty,
      otherwise it raises `ValueError` with a fixed text. */
  function LoadConfig(accessKey: Option<string>, secretKey: Option<string>, telegramToken: Option<string>)
    : (r: Result<Config, Exn>)
    ensures r.Ok? <==> Truthy(accessKey) && Truthy(secretKey) && Truthy(telegramToken)
    ensures r.Ok? ==> r.value == Config(accessKey.value, secretKey.value, telegramToken.value)
    ensures r.Err? ==> r.error == ValueError(MissingEnvText)
  {
    if Truthy(accessKey) && Truthy(secretKey) && Truthy(telegramToken)
    then Ok(Config(accessKey.value, secretKey.value, telegramToken.value))
    else Err(ValueError(MissingEnvText))
  }

  // ---------------------------------------------------------------- command decision

  /** What a chat message asks for. */
  datatype Decision =
    | Ignore                           // not a slash command: no answer at all
    | Help
    | AllStop
    | AllStart
    | StartOne(instance: string)
    | StopOne(instance: string)
    | StateOne(instance: string)
    | UsageError(command: string)      // /start, /stop or /state without exactly one argument
    | InvalidServer                    // an alias that is not configured
    | UnknownCommand

  const TargetedCommands: seq<string> := ["/start", "/stop", "/state"]

  /** The decision for a one-instance command with a resolved instance. */
  function Targeted(command: string, instance: string): Decision
  {
    if command == "/start" then StartOne(instance)
    else if command == "/stop" then StopOne(instance)
    else StateOne(instance)
  }

  /** The command dispatch: the first whitespace-separated token, lower-cased,
      chooses the command. */
  function Decide(text: string): (d: Decision)
    ensures d == Ignore <==> !StartsWith(text, "/")
  {
    if !StartsWith(text, "/") then Ignore
    else
      var parts := Words(text);
      DecideCommand(Lower(parts[0]), parts[1..])
  }

  /** The decision for a lower-cased command word and the words after it:
      one-instance commands need exactly one argument, which must be a
      configured alias. */
  function DecideCommand(command: string, args: seq<string>): (d: Decision)
    ensures d != Ignore
    ensures d.UsageError? <==> command in TargetedCommands && |args| != 1
    ensures d.UsageError? ==> d.command == command
    ensures d.InvalidServer? <==>
              command in TargetedCommands && |args| == 1 && !Truthy(MappingGet(ServerMapping, args[0]))
    ensures d.StartOne? || d.StopOne? || d.StateOne? ==>
              command in TargetedCommands && |args| == 1 && MappingGet(ServerMapping, args[0]) == Some(d.instance)
              && d.instance != ""
    ensures d == UnknownCommand <==> command !in ["/도움말", "/allstop", "/allstart"] + TargetedCommands
    // with a configured alias, `/start` starts, `/stop` stops and `/state` queries that instance
    ensures |args| == 1 && Truthy(MappingGet(ServerMapping, args[0])) ==>
              var instance := MappingGet(ServerMapping, args[0]).value;
              && (command == "/start" ==> d == StartOne(instance))
              && (command == "/stop" ==> d == StopOne(instance))
              && (command == "/state" ==> d == StateOne(instance))
  {
    if command == "/도움말" then Help
    else if command == "/allstop" then AllStop
    else if command == "/allstart" then AllStart
    else if command in TargetedCommands then
      if |args| != 1 then UsageError(command)
      else
        var serverNo := MappingGet(ServerMapping, args[0]);
        if !Truthy(serverNo) then InvalidServer
        else Targeted(command, serverNo.value)
    else UnknownCommand
  }

  // ---------------------------------------------------------------- reply texts

  function ServerErrorText(resultKey: string, message: string): string
  {
    "[서버 오류]\nmethod: " + resultKey + "\nmessage: " + message
  }

  function SuccessText(resultKey: string): string
  {
    "[성공]\nmethod: " + resultKey
  }

  /** Classifies the reply to a start or stop request. An error object
      under `responseError` is reported first, then one under `error`,
      then a non-zero `returnCode` under the action's own key; otherwise
      the action succeeded. A field missing on the way is a `KeyError`. */
  function ProcessResponse(r: Response, resultKey: string): (msg: Result<string, Exn>)
    ensures msg.Err? ==>
              msg.error in [KeyError("returnMessage"), KeyError("message"), KeyError(resultKey), KeyError("returnCode")]
    ensures msg.Ok? ==> msg.value == SuccessText(resultKey) || exists m :: msg.value == ServerErrorText(resultKey, m)
    // a `responseError` is reported by its `returnMessage`
    ensures r.responseError.Some? ==>
              (msg.Ok? <==> r.responseError.value.returnMessage.Some?)
              && (msg.Ok? ==> msg.value == ServerErrorText(resultKey, r.responseError.value.returnMessage.value))
              && (msg.Err? ==> msg.error == KeyError("returnMessage"))
    // an `error` is reported by its `message` alone
    ensures r.responseError.None? && r.error.Some? ==>
              (msg.Ok? <==> r.error.value.message.Some?)
              && (msg.Ok? ==> msg.value == ServerErrorText(resultKey, r.error.value.message.value))
              && (msg.Err? ==> msg.error == KeyError("message"))
    // a non-zero `returnCode` is reported by the result's `returnMessage`
    ensures NonZeroReturnCode(r, resultKey) ==>
              (msg.Ok? <==> r.results[resultKey].returnMessage.Some?)
              && (msg.Ok? ==> msg.value == ServerErrorText(resultKey, r.results[resultKey].returnMessage.value))
              && (msg.Err? ==> msg.error == KeyError("returnMessage"))
    // a reply without the action's result, or a result without `returnCode`, raises
    ensures r.responseError.None? && r.error.None? && resultKey !in r.results ==> msg == Err(KeyError(resultKey))
    ensures (r.responseError.None? && r.error.None? && resultKey in r.results
             && r.results[resultKey].returnCode.None?) ==> msg == Err(KeyError("returnCode"))
  {
    if r.responseError.Some? then
      match Field(r.responseError.value.returnMessage, "returnMessage")
      case Err(e) => Err(e)
      case Ok(m) => Ok(ServerErrorText(resultKey, m))
    else if r.error.Some? then
      match Field(r.error.value.message, "message")
      case Err(e) => Err(e)
      case Ok(m) => Ok(ServerErrorText(resultKey, m))
    else
      match ResultFor(r, resultKey)
      case Err(e) => Err(e)
      case Ok(res) =>
        match Field(res.returnCode, "returnCode")
        case Err(e) => Err(e)
        case Ok(code) =>
          if code != "0" then
            match Field(res.returnMessage, "returnMessage")
            case Err(e) => Err(e)
            case Ok(m) => Ok(ServerErrorText(resultKey, m))
          else Ok(SuccessText(resultKey))
  }

  /** The answer is the success text exactly when neither error object is
      present and the action's own `returnCode` is "0". */
  lemma ProcessSuccessIff(r: Response, resultKey: string)
    ensures ProcessResponse(r, resultKey) == Ok(SuccessText(resultKey))
        <==> r.responseError.None? && r.error.None? && resultKey in r.results
             && r.results[resultKey].returnCode == Some("0")
  {
    forall m: string ensures ServerErrorText(resultKey, m) != SuccessText(resultKey) {
      assert ServerErrorText(resultKey, m)[1] != SuccessText(resultKey)[1];
    }
  }

  /** `responseError` decides the answer whatever else the reply holds;
      failing that, `error` decides it whatever the action's result holds. */
  lemma ProcessPrecedence(r: Response, resultKey: string, e: Option<ApiError>, results: map<string, MethodResult>)
    ensures r.responseError.Some? ==>
      ProcessResponse(r.(error := e, results := results), resultKey) == ProcessResponse(r, resultKey)
    ensures r.responseError.None? && r.error.Some? ==>
      ProcessResponse(r.(results := results), resultKey) == ProcessResponse(r, resultKey)
    ensures r.responseError.Some? && r.responseError.value.returnMessage.Some? ==>
      ProcessResponse(r, resultKey) == Ok(ServerErrorText(resultKey, r.responseError.value.returnMessage.value))
  {
  }

  /** The chat prefix naming the server: its number, or `all` when none is given. */
  function ReplyPrefix(serverNo: Option<string>): string
  {
    "[" + (if Truthy(serverNo) then serverNo.value else "all") + "]"
  }

  // ---------------------------------------------------------------- effects

  /** The chat message reporting on one request: a failed request or an
      error status is a network error, a reply is classified and prefixed
      with the server, and an exception from the classification is a
      system error. */
  function ReportText(cred: Credentials, env: Env, query: string, resultKey: string,
                      serverNo: Option<string>): string
  {
    match CheckedBody(env.api(SignedRequest(cred, env, query)))
    case Err(e) => "[네트워크 오류]\n" + ExnText(e)
    case Ok(body) =>
      match ProcessResponse(body, resultKey)
      case Ok(m) => ReplyPrefix(serverNo) + m
      case Err(e) => "[시스템 오류]\n" + ExnText(e)
  }

  /** One signed request and the one chat message reporting on it, sent
      to the chat the command came from. */
  function ServerRequestEffects(cred: Credentials, env: Env, query: string, resultKey: string,
                                chatId: string, serverNo: Option<string>): (r: seq<Effect>)
    ensures |r| == 2 && r[0] == HttpGet(SignedRequest(cred, env, query))
    ensures r[1].ChatSend? && r[1].chatId == chatId
  {
    [HttpGet(SignedRequest(cred, env, query)), ChatSend(chatId, ReportText(cred, env, query, resultKey, serverNo))]
  }

  /** The one-instance start or stop query, with the action spliced in. */
  function ActionQuery(actionType: string, instance: string): string
  {
    "/vserver/v2/" + actionType + "ServerInstances" + "?responseFormatType=json&" + "serverInstanceNoList.1" + "=" + instance
  }

  lemma ActionQueryIsStartOrStop(instance: string)
    ensures ActionQuery("start", instance) == StartQuery(instance)
    ensures ActionQuery("stop", instance) == StopQuery(instance)
    ensures "start" + "ServerInstancesResponse" == StartMethod
    ensures "stop" + "ServerInstancesResponse" == StopMethod
  {
  }

  /** The start or the stop query for an instance. */
  function SwitchQuery(start: bool, instance: string): string
  {
    if start then StartQuery(instance) else StopQuery(instance)
  }

  /** The result key of the start or the stop action. */
  function SwitchMethod(start: bool): string
  {
    if start then StartMethod else StopMethod
  }

  /** One request per instance, in order, all starting or all stopping:
      a request and its report for each instance. */
  function EachInstanceEffects(cred: Credentials, env: Env, instances: seq<string>, start: bool, chatId: string)
    : (r: seq<Effect>)
    ensures |r| == 2 * |instances|
  {
    if instances == [] then []
    else
      var n := |instances| - 1;
      EachInstanceEffects(cred, env, instances[..n], start, chatId)
      + ServerRequestEffects(cred, env, SwitchQuery(start, instances[n]), SwitchMethod(start), chatId,
                             Some(instances[n]))
  }

  /** What `set_server_state` does for each action. */
  function SetStateEffects(cred: Credentials, env: Env, action: string, serverNo: Option<string>, chatId: string)
    : (r: seq<Effect>)
    ensures action == "allstart" || action == "allstop" ==> |r| == 2 * |ServerMapping|
    ensures action != "allstart" && action != "allstop" ==>
              (r == [] <==> !((action == "start" || action == "stop") && Truthy(serverNo)))
  {
    if action == "allstart" then EachInstanceEffects(cred, env, MappingValues(ServerMapping), true, chatId)
    else if action == "allstop" then EachInstanceEffects(cred, env, MappingValues(ServerMapping), false, chatId)
    else if (action == "start" || action == "stop") && Truthy(serverNo) then
      var actionType := if action == "start" then "start" else "stop";
      ServerRequestEffects(cred, env, ActionQuery(actionType, serverNo.value),
                           actionType + "ServerInstancesResponse", chatId, serverNo)
    else []
  }

  /** The status line for an instance, read from a detail reply. */
  function StatusMessage(body: Response, serverNo: string): Result<string, Exn>
  {
    if DetailMethod in body.results then
      match FirstInstanceStatus(body.results[DetailMethod])
      case Err(e) => Err(e)
      case Ok(status) => Ok("[서버 상태]\n서버 번호: " + serverNo + "\n현재 상태: " + status)
    else Ok("[오류] 서버 상태를 가져올 수 없습니다.")
  }

  /** What `get_server_state` does: one detail request, one chat message. */
  function StateEffects(cred: Credentials, env: Env, serverNo: string, chatId: string): (r: seq<Effect>)
    ensures |r| == 2 && r[0] == HttpGet(SignedRequest(cred, env, DetailQuery(serverNo)))
    ensures r[1].ChatSend? && r[1].chatId == chatId
  {
    var req := SignedRequest(cred, env, DetailQuery(serverNo));
    var text :=
      match CheckedBody(env.api(req))
      case Err(e) => "[서버 상태 조회 오류]\n" + ExnText(e)
      case Ok(body) =>
        match StatusMessage(body, serverNo)
        case Ok(m) => "[" + serverNo + "]" + m
        case Err(e) => "[서버 상태 조회 오류]\n" + ExnText(e);
    [HttpGet(req), ChatSend(chatId, text)]
  }

  /** Everything that follows from a decision. */
  function DecisionEffects(cred: Credentials, env: Env, d: Decision, chatId: string): (r: seq<Effect>)
    ensures r == [] <==> d == Ignore || ((d.StartOne? || d.StopOne?) && d.instance == "")
  {
    match d
    case Ignore => []
    case Help => [ChatSend(chatId, HelpMessage)]
    case AllStop => SetStateEffects(cred, env, "allstop", None, chatId)
    case AllStart => SetStateEffects(cred, env, "allstart", None, chatId)
    case StartOne(id) => SetStateEffects(cred, env, "start", Some(id), chatId)
    case StopOne(id) => SetStateEffects(cred, env, "stop", Some(id), chatId)
    case StateOne(id) => StateEffects(cred, env, id, chatId)
    case UsageError(c) => [ChatSend(chatId, UsageText(c))]
    case InvalidServer => [ChatSend(chatId, InvalidServerText)]
    case UnknownCommand => [ChatSend(chatId, UnknownCommandText)]
  }

  // ---------------------------------------------------------------- the manager

  /** The server manager: settings fixed at construction, and the trace of
      everything it has sent so far. */
  class NcpServerManager {
    const accessKey: string
    const secretKey: string
    const telegramToken: string
    var trace: seq<Effect>

    function Cred(): Credentials
    {
      Credentials(accessKey, secretKey)
    }

    constructor (config: Config)
      ensures Cred() == Credentials(config.accessKey, config.secretKey)
      ensures telegramToken == config.telegramToken
      ensures trace == []
    {
      accessKey := config.accessKey;
      secretKey := config.secretKey;
      telegramToken := config.telegramToken;
      trace := [];
    }

    method SendMessage(text: string, chatId: string)
      modifies this
      ensures trace == old(trace) + [ChatSend(chatId, text)]
    {
      trace := trace + [ChatSend(chatId, text)];
    }

    method SendServerRequest(query: string, resultKey: string, chatId: string, serverNo: Option<string>, env: Env)
      modifies this
      ensures trace == old(trace) + ServerRequestEffects(Cred(), env, query, resultKey, chatId, serverNo)
    {
      var req := SignedRequest(Cred(), env, query);
      trace := trace + [HttpGet(req)];
      var body := CheckedBody(env.api(req));
      if body.Err? {
        SendMessage("[네트워크 오류]\n" + ExnText(body.error), chatId);
      } else {
        var message := ProcessResponse(body.value, resultKey);
        if message.Ok? {
          SendMessage(ReplyPrefix(serverNo) + message.value, chatId);
        } else {
          SendMessage("[시스템 오류]\n" + ExnText(message.error), chatId);
        }
      }
    }

    /** Starts or stops every configured instance in turn, or one given instance. */
    method SetServerState(action: string, serverNo: Option<string>, chatId: string, env: Env)
      modifies this
      ensures trace == old(trace) + SetStateEffects(Cred(), env, action, serverNo, chatId)
    {
      if action == "allstart" || action == "allstop" {
        var start := action == "allstart";
        var servers := MappingValues(ServerMapping);
        for i := 0 to |servers|
          invariant trace == old(trace) + EachInstanceEffects(Cred(), env, servers[..i], start, chatId)
        {
          var server := servers[i];
          if start {
            var query := StartQuery(server);
            SendServerRequest(query, StartMethod, chatId, Some(server), env);
          } else {
            var query := StopQuery(server);
            SendServerRequest(query, StopMethod, chatId, Some(server), env);
          }
          assert servers[..i + 1][..i] == servers[..i];
        }
        assert servers[..|servers|] == servers;
      } else if (action == "start" || action == "stop") && Truthy(serverNo) {
        var actionType := if action == "start" then "start" else "stop";
        SendServerRequest(ActionQuery(actionType, serverNo.value), actionType + "ServerInstancesResponse",
                          chatId, serverNo, env);
      }
    }

    method GetServerState(serverNo: string, chatId: string, env: Env)
      modifies this
      ensures trace == old(trace) + StateEffects(Cred(), env, serverNo, chatId)
    {
      var req := SignedRequest(Cred(), env, DetailQuery(serverNo));
      trace := trace + [HttpGet(req)];
      var body := CheckedBody(env.api(req));
      if body.Err? {
        SendMessage("[서버 상태 조회 오류]\n" + ExnText(body.error), chatId);
      } else {
        var message := StatusMessage(body.value, serverNo);
        if message.Ok? {
          SendMessage("[" + serverNo + "]" + message.value, chatId);
        } else {
          SendMessage("[서버 상태 조회 오류]\n" + ExnText(message.error), chatId);
        }
      }
    }
  }

  /** Handles one chat message: builds a manager from the environment's
      settings (a missing one raises before the message is read), then
      acts on the message and returns everything sent, in order. */
  method HandleMessage(accessKey: Option<string>, secretKey: Option<string>, telegramToken: Option<string>,
                       text: string, chatId: string, env: Env)
    returns (trace: seq<Effect>)
    ensures !(Truthy(accessKey) && Truthy(secretKey) && Truthy(telegramToken)) ==>
              trace == [Crash(ValueError(MissingEnvText))]
    ensures Truthy(accessKey) && Truthy(secretKey) && Truthy(telegramToken) ==>
              trace == DecisionEffects(Credentials(accessKey.value, secretKey.value), env, Decide(text), chatId)
  {
    var config := LoadConfig(accessKey, secretKey, telegramToken);
    if config.Err? {
      trace := [Crash(config.error)];
      return;
    }
    var manager := new NcpServerManager(config.value);
    match Decide(text) {
      case Ignore =>
      case Help => manager.SendMessage(HelpMessage, chatId);
      case AllStop => manager.SetServerState("allstop", None, chatId, env);
      case AllStart => manager.SetServerState("allstart", None, chatId, env);
      case StartOne(id) => manager.SetServerState("start", Some(id), chatId, env);
      case StopOne(id) => manager.SetServerState("stop", Some(id), chatId, env);
      case StateOne(id) => manager.GetServerState(id, chatId, env);
      case UsageError(c) => manager.SendMessage(UsageText(c), chatId);
      case InvalidServer => manager.SendMessage(InvalidServerText, chatId);
      case UnknownCommand => manager.SendMessage(UnknownCommandText, chatId);
    }
    trace := manager.trace;
  }
}

/** What the command bot promises, stated over its decision and effect functions. */
module BotProperties {
  import opened Common
  import opened Text
  import opened NcpApi
  import opened Bot

  /** A text that starts with a space-free command word. */
  predicate CommandThen(command: string, rest: string)
  {
    IsWord(command) && (rest == [] || IsSpace(rest[0]))
  }

  /** Only slash commands get any answer; anything else is silently ignored. */
  lemma NonSlashIgnored(cred: Credentials, env: Env, text: string, chatId: string)
    ensures Decide(text) == Ignore <==> !StartsWith(text, "/")
    ensures !StartsWith(text, "/") ==> DecisionEffects(cred, env, Decide(text), chatId) == []
  {
  }

  /** The command word is compared lower-cased: `/START 1` is `/start 1`. */
  lemma CommandCaseInsensitive(command: string, rest: string)
    requires CommandThen(command, rest)
    ensures Decide(command + rest) == Decide(Lower(command) + rest)
  {
    LowerProperties(command);
    LowerProperties(Lower(command));
    WordsOfWordThen(command, rest);
    WordsOfWordThen(Lower(command), rest);
    assert StartsWith(command + rest, "/") <==> command[0] == '/' by {
      assert (command + rest)[0] == command[0];
    }
    assert StartsWith(Lower(command) + rest, "/") <==> command[0] == '/' by {
      assert (Lower(command) + rest)[0] == LowerChar(command[0]);
    }
    assert ([command] + Words(rest))[1..] == Words(rest);
    assert ([Lower(command)] + Words(rest))[1..] == Words(rest);
  }

  /** The six command words are already lower-case words. */
  lemma CommandWords(command: string)
    requires command in ["/도움말", "/allstop", "/allstart", "/start", "/stop", "/state"]
    ensures IsWord(command) && command[0] == '/' && Lower(command) == command
  {
    assert IsWord(command) && NoUpper(command);
    LowerNoUpper(command);
  }

  /** A space-joined list of words that begins with a slash is read back
      as that list. */
  lemma {:induction false} JoinedWords(ws: seq<string>)
    requires |ws| >= 1 && forall i :: 0 <= i < |ws| ==> IsWord(ws[i])
    requires |ws[0]| >= 1 && ws[0][0] == '/'
    ensures StartsWith(JoinWith(ws, ' '), "/") && Words(JoinWith(ws, ' ')) == ws
  {
    WordsOfJoin(ws);
    var text := JoinWith(ws, ' ');
    if |ws| > 1 {
      assert text == ws[0] + ([' '] + JoinWith(ws[1..], ' '));
    }
    assert text[0] == '/';
    assert text[..1] == "/";
  }

  /** What the dispatch sees of `command arg1 arg2 ...`: the command word
      and exactly those arguments. */
  lemma DispatchOfWords(command: string, args: seq<string>)
    requires command in ["/도움말", "/allstop", "/allstart", "/start", "/stop", "/state"]
    requires forall i :: 0 <= i < |args| ==> IsWord(args[i])
    ensures Decide(JoinWith([command] + args, ' ')) == DecideCommand(command, args)
  {
    var ws := [command] + args;
    CommandWords(command);
    forall i | 0 <= i < |ws| ensures IsWord(ws[i]) {
      if i > 0 { assert ws[i] == args[i - 1]; }
    }
    JoinedWords(ws);
    assert ws[0] == command && ws[1..] == args;
  }

  /** The same with any whitespace between the words and after them: the
      separators may be runs of any length and kind, as `split()` allows. */
  lemma DispatchOfSpacedWords(command: string, args: seq<string>, seps: seq<string>, trail: string)
    requires command in ["/도움말", "/allstop", "/allstart", "/start", "/stop", "/state"]
    requires forall i :: 0 <= i < |args| ==> IsWord(args[i])
    requires |seps| == |args| && forall i :: 0 <= i < |seps| ==> |seps[i]| > 0 && AllSpace(seps[i])
    requires AllSpace(trail)
    ensures Decide(Interleave([command] + args, seps) + trail) == DecideCommand(command, args)
  {
    var ws := [command] + args;
    CommandWords(command);
    forall i | 0 <= i < |ws| ensures IsWord(ws[i]) {
      if i > 0 { assert ws[i] == args[i - 1]; }
    }
    var text := Interleave(ws, seps) + trail;
    WordsOfSpacedJoin("", ws, seps, trail);
    assert "" + Interleave(ws, seps) + trail == text;
    assert Words(text) == ws;
    InterleaveStarts(ws, seps, trail);
    assert text[0] == command[0] == '/';
    assert text[..1] == "/";
    assert StartsWith(text, "/");
    assert Decide(text) == DecideCommand(Lower(ws[0]), ws[1..]);
    assert ws[0] == command && ws[1..] == args;
  }

  /** Two spaces between `/start` and its alias still start the server
      alias `1` maps to. */
  lemma DoubleSpaceStillStarts()
    ensures Decide("/start  1") == StartOne("25741251")
  {
    DispatchOfSpacedWords("/start", ["1"], ["  "], "");
    assert Interleave(["/start"] + ["1"], ["  "]) + "" == "/start  1";
  }

  /** `/allstart`, `/allstop` and `/도움말` ignore whatever follows them;
      `/도움말` is answered with the help text alone. */
  lemma WholeFleetCommandsIgnoreArguments(cred: Credentials, env: Env, args: seq<string>, chatId: string)
    requires forall i :: 0 <= i < |args| ==> IsWord(args[i])
    ensures Decide(JoinWith(["/allstart"] + args, ' ')) == AllStart
    ensures Decide(JoinWith(["/allstop"] + args, ' ')) == AllStop
    ensures Decide(JoinWith(["/도움말"] + args, ' ')) == Help
    ensures DecisionEffects(cred, env, Decide(JoinWith(["/도움말"] + args, ' ')), chatId)
            == [ChatSend(chatId, HelpMessage)]
  {
    DispatchOfWords("/allstart", args);
    DispatchOfWords("/allstop", args);
    DispatchOfWords("/도움말", args);
  }

  /** The decisions answered with one fixed chat message, and their texts. */
  lemma AnswerOnlyEffects(cred: Credentials, env: Env, d: Decision, chatId: string)
    requires d.Help? || d.UsageError? || d.InvalidServer? || d.UnknownCommand?
    ensures d.Help? ==> DecisionEffects(cred, env, d, chatId) == [ChatSend(chatId, HelpMessage)]
    ensures d.UsageError? ==>
              DecisionEffects(cred, env, d, chatId)
              == [ChatSend(chatId, "[에러] 명령어를 올바르게 입력해주세요\n\n" + d.command + " 서버번호")]
    ensures d.InvalidServer? ==>
              DecisionEffects(cred, env, d, chatId) == [ChatSend(chatId, "[에러] 유효하지 않은 서버 번호입니다.")]
    ensures d.UnknownCommand? ==>
              DecisionEffects(cred, env, d, chatId)
              == [ChatSend(chatId, "[에러] 등록되지 않은 명령어입니다\n/도움말 을 확인해주세요")]
  {
  }

  /** A one-instance command with other than exactly one argument gets the
      usage text naming that command. */
  lemma WrongArgumentCountIsUsageError(cred: Credentials, env: Env, command: string, args: seq<string>,
                                       chatId: string)
    requires command in TargetedCommands
    requires forall i :: 0 <= i < |args| ==> IsWord(args[i])
    requires |args| != 1
    ensures Decide(JoinWith([command] + args, ' ')) == UsageError(command)
    ensures DecisionEffects(cred, env, Decide(JoinWith([command] + args, ' ')), chatId)
            == [ChatSend(chatId, "[에러] 명령어를 올바르게 입력해주세요\n\n" + command + " 서버번호")]
  {
    DispatchOfWords(command, args);
    AnswerOnlyEffects(cred, env, UsageError(command), chatId);
  }

  /** A one-instance command with one argument acts on the instance the
      alias maps to, or answers that the alias is invalid. */
  lemma AliasResolution(cred: Credentials, env: Env, command: string, alias: string, chatId: string)
    requires command in TargetedCommands
    requires IsWord(alias)
    ensures var d := Decide(command + " " + alias);
      match MappingGet(ServerMapping, alias)
      case Some(instance) =>
        && (command == "/start" ==> d == StartOne(instance))
        && (command == "/stop" ==> d == StopOne(instance))
        && (command == "/state" ==> d == StateOne(instance))
      case None =>
        d == InvalidServer
        && DecisionEffects(cred, env, d, chatId) == [ChatSend(chatId, "[에러] 유효하지 않은 서버 번호입니다.")]
  {
    DispatchOfWords(command, [alias]);
    assert JoinWith([command] + [alias], ' ') == command + " " + alias;
    var serverNo := MappingGet(ServerMapping, alias);
    if serverNo.Some? {
      var i :| 0 <= i < |ServerMapping| && ServerMapping[i] == (alias, serverNo.value);
      ServerMappingWellFormed();
    }
  }

  /** `/start N` and `/stop N` for a configured alias send the start or
      the stop query for the instance N maps to, and read the reply under
      the start or the stop result key; `/state N` sends the detail query. */
  lemma SingleCommandEffects(cred: Credentials, env: Env, alias: string, chatId: string)
    requires IsWord(alias) && MappingGet(ServerMapping, alias).Some?
    ensures var instance := MappingGet(ServerMapping, alias).value;
      && DecisionEffects(cred, env, Decide("/start" + " " + alias), chatId)
         == ServerRequestEffects(cred, env, StartQuery(instance), StartMethod, chatId, Some(instance))
      && DecisionEffects(cred, env, Decide("/stop" + " " + alias), chatId)
         == ServerRequestEffects(cred, env, StopQuery(instance), StopMethod, chatId, Some(instance))
      && DecisionEffects(cred, env, Decide("/state" + " " + alias), chatId)
         == StateEffects(cred, env, instance, chatId)
  {
    var instance := MappingGet(ServerMapping, alias).value;
    assert instance != "" by {
      var i :| 0 <= i < |ServerMapping| && ServerMapping[i] == (alias, instance);
      ServerMappingWellFormed();
    }
    AliasResolution(cred, env, "/start", alias, chatId);
    AliasResolution(cred, env, "/stop", alias, chatId);
    AliasResolution(cred, env, "/state", alias, chatId);
    OneInstanceEffects(cred, env, instance, chatId);
  }

  /** The effects of acting on one instance: the start or the stop query
      read under its own result key, or the detail query. */
  lemma OneInstanceEffects(cred: Credentials, env: Env, instance: string, chatId: string)
    requires instance != ""
    ensures DecisionEffects(cred, env, StartOne(instance), chatId)
            == ServerRequestEffects(cred, env, StartQuery(instance), StartMethod, chatId, Some(instance))
    ensures DecisionEffects(cred, env, StopOne(instance), chatId)
            == ServerRequestEffects(cred, env, StopQuery(instance), StopMethod, chatId, Some(instance))
    ensures DecisionEffects(cred, env, StateOne(instance), chatId) == StateEffects(cred, env, instance, chatId)
  {
    ActionQueryIsStartOrStop(instance);
  }

  /** Any other slash command gets the fixed unknown-command answer. */
  lemma OtherCommandsUnknown(cred: Credentials, env: Env, command: string, rest: string, chatId: string)
    requires CommandThen(command, rest) && command[0] == '/'
    requires Lower(command) !in ["/도움말", "/allstop", "/allstart", "/start", "/stop", "/state"]
    ensures Decide(command + rest) == UnknownCommand
    ensures DecisionEffects(cred, env, Decide(command + rest), chatId)
            == [ChatSend(chatId, "[에러] 등록되지 않은 명령어입니다\n/도움말 을 확인해주세요")]
  {
    var text := command + rest;
    WordsOfWordThen(command, rest);
    assert text[..1] == "/" by {
      assert text[0] == command[0];
    }
    var parts := Words(text);
    assert parts[0] == command && parts[1..] == Words(rest) by {
      assert parts == [command] + Words(rest);
    }
    assert Lower(command) !in ["/도움말", "/allstop", "/allstart"] + TargetedCommands;
    assert DecideCommand(Lower(command), Words(rest)) == UnknownCommand;
    assert Decide(text) == UnknownCommand;
    AnswerOnlyEffects(cred, env, UnknownCommand, chatId);
  }

  /** One signed request and one chat message, for the query asked for:
      the message is the report on that request. */
  lemma ServerRequestShape(cred: Credentials, env: Env, query: string, resultKey: string,
                           chatId: string, serverNo: Option<string>)
    ensures var t := ServerRequestEffects(cred, env, query, resultKey, chatId, serverNo);
      Queries(t) == [query] && ChatTexts(t) == [ReportText(cred, env, query, resultKey, serverNo)]
      && t[0] == HttpGet(SignedRequest(cred, env, query))
  {
    var t := ServerRequestEffects(cred, env, query, resultKey, chatId, serverNo);
    assert t[1..][1..] == [];
    assert Queries(t[1..]) == [];
    assert ChatTexts(t[1..]) == [t[1].text];
  }

  /** The report on one request, by what the server did. No reply, or an
      error status (4xx or 5xx, which `raise_for_status` turns into an
      exception), gives the network-error text with the exception's text
      and no server prefix. Any other reply is classified: the message is
      prefixed with `[N]` for server number N, or with `[all]` when none is
      given, and an exception from the classification gives the
      system-error text. */
  lemma ServerRequestReplies(cred: Credentials, env: Env, query: string, resultKey: string,
                             serverNo: Option<string>)
    ensures var reply := env.api(SignedRequest(cred, env, query));
      var text := ReportText(cred, env, query, resultKey, serverNo);
      && (reply.Unreachable? ==> text == "[네트워크 오류]\n" + reply.text)
      && (reply.Replied? && 400 <= reply.status < 600 ==> text == "[네트워크 오류]\n" + reply.errorText)
      && (reply.Replied? && !(400 <= reply.status < 600) ==>
            match ProcessResponse(reply.body, resultKey)
            case Ok(m) =>
              (Truthy(serverNo) ==> text == "[" + serverNo.value + "]" + m)
              && (!Truthy(serverNo) ==> text == "[all]" + m)
            case Err(e) => text == "[시스템 오류]\n" + ExnText(e))
  {
    var reply := env.api(SignedRequest(cred, env, query));
    var text := ReportText(cred, env, query, resultKey, serverNo);
    match CheckedBody(reply)
    case Err(e) =>
      assert text == "[네트워크 오류]\n" + ExnText(e);
    case Ok(body) =>
      assert body == reply.body;
      var msg := ProcessResponse(body, resultKey);
      if msg.Ok? {
        assert text == ReplyPrefix(serverNo) + msg.value;
      } else {
        assert text == "[시스템 오류]\n" + ExnText(msg.error);
      }
  }

  /** A state query sends one detail request and one chat message. */
  lemma StateRequestShape(cred: Credentials, env: Env, serverNo: string, chatId: string)
    ensures var t := StateEffects(cred, env, serverNo, chatId);
      Queries(t) == [DetailQuery(serverNo)] && |ChatTexts(t)| == 1
  {
    var t := StateEffects(cred, env, serverNo, chatId);
    assert t[1..][1..] == [];
    assert Queries(t[1..]) == [];
    assert ChatTexts(t[1..]) == [t[1].text];
  }

  /** The queries a whole-fleet action is meant to send, in order. */
  function SwitchQueries(start: bool, instances: seq<string>): seq<string>
  {
    seq(|instances|, i requires 0 <= i < |instances| => SwitchQuery(start, instances[i]))
  }

  /** The chat reports a whole-fleet action is meant to send: for each
      instance, the report on its own request, under the start or stop
      result key and prefixed with that instance. */
  function SwitchReports(cred: Credentials, env: Env, start: bool, instances: seq<string>): seq<string>
  {
    seq(|instances|, i requires 0 <= i < |instances| =>
      ReportText(cred, env, SwitchQuery(start, instances[i]), SwitchMethod(start), Some(instances[i])))
  }

  /** A whole-fleet action sends exactly one request per instance, in order,
      with the start or stop query for that instance, and one chat message
      per instance, in the same order, reporting on that instance. */
  lemma {:induction false} EachInstanceRequests(cred: Credentials, env: Env, instances: seq<string>,
                                                start: bool, chatId: string)
    ensures var t := EachInstanceEffects(cred, env, instances, start, chatId);
      Queries(t) == SwitchQueries(start, instances) && ChatTexts(t) == SwitchReports(cred, env, start, instances)
  {
    if instances != [] {
      var n := |instances| - 1;
      var last := instances[n];
      var front := EachInstanceEffects(cred, env, instances[..n], start, chatId);
      var one := ServerRequestEffects(cred, env, SwitchQuery(start, last), SwitchMethod(start), chatId, Some(last));
      assert EachInstanceEffects(cred, env, instances, start, chatId) == front + one;
      EachInstanceRequests(cred, env, instances[..n], start, chatId);
      ServerRequestShape(cred, env, SwitchQuery(start, last), SwitchMethod(start), chatId, Some(last));
      QueriesAppend(front, one);
      SwitchQueriesSnoc(start, instances);
      SwitchReportsSnoc(cred, env, start, instances);
    }
  }

  lemma SwitchReportsSnoc(cred: Credentials, env: Env, start: bool, instances: seq<string>)
    requires |instances| >= 1
    ensures var n := |instances| - 1;
      SwitchReports(cred, env, start, instances)
      == SwitchReports(cred, env, start, instances[..n])
         + [ReportText(cred, env, SwitchQuery(start, instances[n]), SwitchMethod(start), Some(instances[n]))]
  {
    var report := x => ReportText(cred, env, SwitchQuery(start, x), SwitchMethod(start), Some(x));
    MapSnoc(report, instances);
  }

  /** Mapping a function over a list, split off at its last element. */
  lemma MapSnoc(f: string -> string, xs: seq<string>)
    requires |xs| >= 1
    ensures var n := |xs| - 1;
      seq(|xs|, i requires 0 <= i < |xs| => f(xs[i]))
      == seq(n, i requires 0 <= i < n => f(xs[..n][i])) + [f(xs[n])]
  {
    var n := |xs| - 1;
    var whole := seq(|xs|, i requires 0 <= i < |xs| => f(xs[i]));
    var front := seq(n, i requires 0 <= i < n => f(xs[..n][i]));
    forall i | 0 <= i < |xs| ensures whole[i] == (front + [f(xs[n])])[i] {
      if i < n {
        assert xs[..n][i] == xs[i];
      }
    }
  }

  lemma SwitchQueriesSnoc(start: bool, instances: seq<string>)
    requires |instances| >= 1
    ensures var n := |instances| - 1;
      SwitchQueries(start, instances) == SwitchQueries(start, instances[..n]) + [SwitchQuery(start, instances[n])]
  {
  }

  /** The answer to a state query, by what the server did: any failure is
      the state-query error text; a classified reply is prefixed with the
      instance; the status line names the instance and the status of the
      first listed instance; a reply without the detail key gets the fixed
      "cannot read the state" text. */
  lemma StateReplies(cred: Credentials, env: Env, serverNo: string, chatId: string)
    ensures var reply := env.api(SignedRequest(cred, env, DetailQuery(serverNo)));
      var text := StateEffects(cred, env, serverNo, chatId)[1].text;
      && (reply.Unreachable? ==> text == "[서버 상태 조회 오류]\n" + reply.text)
      && (reply.Replied? && 400 <= reply.status < 600 ==> text == "[서버 상태 조회 오류]\n" + reply.errorText)
      && (reply.Replied? && !(400 <= reply.status < 600) ==>
            (DetailMethod !in reply.body.results ==>
               text == "[" + serverNo + "]" + "[오류] 서버 상태를 가져올 수 없습니다.")
            && (DetailMethod in reply.body.results ==>
                  match FirstInstanceStatus(reply.body.results[DetailMethod])
                  case Ok(status) => text == "[" + serverNo + "]" + "[서버 상태]\n서버 번호: " + serverNo
                                             + "\n현재 상태: " + status
                  case Err(e) => text == "[서버 상태 조회 오류]\n" + ExnText(e)))
  {
  }

  /** The requests each decision sends: none for an answer-only decision,
      one for the mapped instance, one per configured instance for the
      whole-fleet commands. */
  lemma DecisionRequests(cred: Credentials, env: Env, d: Decision, chatId: string)
    ensures var q := Queries(DecisionEffects(cred, env, d, chatId));
      var values := MappingValues(ServerMapping);
      match d
      case StartOne(id) => q == (if id != "" then [StartQuery(id)] else [])
      case StopOne(id) => q == (if id != "" then [StopQuery(id)] else [])
      case StateOne(id) => q == [DetailQuery(id)]
      case AllStart => q == SwitchQueries(true, values)
      case AllStop => q == SwitchQueries(false, values)
      case _ => q == []
  {
    var values := MappingValues(ServerMapping);
    match d
    case StartOne(id) =>
      ActionQueryIsStartOrStop(id);
      ServerRequestShape(cred, env, StartQuery(id), StartMethod, chatId, Some(id));
    case StopOne(id) =>
      ActionQueryIsStartOrStop(id);
      ServerRequestShape(cred, env, StopQuery(id), StopMethod, chatId, Some(id));
    case StateOne(id) =>
      StateRequestShape(cred, env, id, chatId);
    case AllStart =>
      EachInstanceRequests(cred, env, values, true, chatId);
    case AllStop =>
      EachInstanceRequests(cred, env, values, false, chatId);
    case _ =>
  }

  /** Every slash command gets at least one chat answer. */
  lemma SlashCommandsAnswered(cred: Credentials, env: Env, text: string, chatId: string)
    requires StartsWith(text, "/")
    ensures |ChatTexts(DecisionEffects(cred, env, Decide(text), chatId))| >= 1
  {
    var d := Decide(text);
    var values := MappingValues(ServerMapping);
    match d
    case StartOne(id) =>
      ServerRequestShape(cred, env, ActionQuery("start", id), "start" + "ServerInstancesResponse", chatId, Some(id));
    case StopOne(id) =>
      ServerRequestShape(cred, env, ActionQuery("stop", id), "stop" + "ServerInstancesResponse", chatId, Some(id));
    case StateOne(id) =>
      StateRequestShape(cred, env, id, chatId);
    case AllStart =>
      EachInstanceRequests(cred, env, values, true, chatId);
    case AllStop =>
      EachInstanceRequests(cred, env, values, false, chatId);
    case _ =>
  }
}

=== FILE: common.dfy ===
/** Shared value types: optional values, results, and the Python exceptions
    that the modelled code raises, propagates or catches. */
module Common {

  datatype Option<+T> = None | Some(value: T)

  datatype Result<+T, +E> = Ok(value: T) | Err(error: E)

  /** Python truthiness of an optional string: `None` and `""` are false. */
  predicate Truthy(o: Option<string>)
  {
    o.Some? && o.value != ""
  }

  /** `str(o)` of an optional string, as an f-string renders it. */
  function PyStr(o: Option<string>): string
  {
    match o
    case None => "None"
    case Some(s) => s
  }

  /** The exceptions the core can meet. */
  datatype Exn =
    | KeyError(key: string)               // subscript of a missing dictionary key
    | IndexError                          // `[0]` on an empty list
    | RequestError(text: string)          // requests.RequestException, with its `str(e)`
    | OSError(path: string, text: string) // `open(path, 'rb')` failed, with its `str(e)`
    | ValueError(text: string)            // raised with a fixed message

  /** `str(e)` for each exception. */
  function ExnText(e: Exn): string
  {
    match e
    case KeyError(k) => "'" + k + "'"
    case IndexError => "list index out of range"
    case RequestError(t) => t
    case OSError(_, t) => t
    case ValueError(t) => t
  }
}

=== FILE: ncp_api.dfy ===
/** What the system exchanges with the NAVER Cloud Platform server API:
    the query strings it builds, the signed request it sends, the shapes
    of JSON reply it reads, and the trace of observable effects (requests,
    chat messages, console output, uncaught exceptions) that the two
    programs produce. */
module NcpApi {
  import opened Common
  import opened Text
  import opened Signing
  import opened UrlQuery

  const BaseUrl: string := "https://ncloud.apigw.ntruss.com"

  /** The action paths, written with the action name spliced in. */
  const StartPath: string := "/vserver/v2/" + "start" + "ServerInstances"
  const StopPath: string := "/vserver/v2/" + "stop" + "ServerInstances"
  const DetailPath: string := "/vserver/v2/" + "getServerInstanceDetail"

  /** The top-level key under which each action's result is returned. */
  const StartMethod: string := "start" + "ServerInstancesResponse"
  const StopMethod: string := "stop" + "ServerInstancesResponse"
  const DetailMethod: string := "getServerInstanceDetail" + "Response"

  // ---------------------------------------------------------------- queries

  function StartQuery(instance: string): string
  {
    StartPath + "?responseFormatType=json&" + "serverInstanceNoList.1" + "=" + instance
  }

  function StopQuery(instance: string): string
  {
    StopPath + "?responseFormatType=json&" + "serverInstanceNoList.1" + "=" + instance
  }

  function DetailQuery(instance: string): string
  {
    DetailPath + "?responseFormatType=json&" + "serverInstanceNo" + "=" + instance
  }

  /** The parameters `responseFormatType=json&key=instance` read back. */
  lemma InstanceParamsRoundTrip(key: string, instance: string)
    requires '&' !in key && '=' !in key && '&' !in instance
    ensures ParseParams(SplitOn("responseFormatType=json&" + key + "=" + instance, '&'))
         == Some([("responseFormatType", "json"), (key, instance)])
  {
    var first := "responseFormatType=json";
    var second := key + "=" + instance;
    assert SplitOn("responseFormatType=json&" + key + "=" + instance, '&') == [first, second] by {
      assert '&' !in first;
      assert JoinWith([first, second], '&') == first + ['&'] + second by {
        assert [first, second][1..] == [second];
      }
      assert "responseFormatType=json&" + key + "=" + instance == first + ['&'] + second;
      SplitOnJoin([first, second], '&');
    }
    assert SplitFirst(first, '=') == Some(("responseFormatType", "json")) by {
      assert first == "responseFormatType" + ['='] + "json";
      SplitFirstOf("responseFormatType", '=', "json");
    }
    assert SplitFirst(second, '=') == Some((key, instance)) by {
      assert second == key + ['='] + instance;
      SplitFirstOf(key, '=', instance);
    }
    ParseParamsPair(first, second, ("responseFormatType", "json"), (key, instance));
  }

  /** A one-instance query `path?responseFormatType=json&key=instance`
      reads back as that path, JSON format and that instance. */
  lemma InstanceQueryRoundTrip(path: string, key: string, instance: string)
    requires '?' !in path && '&' !in key && '=' !in key && '&' !in instance
    ensures ParseQuery(path + "?responseFormatType=json&" + key + "=" + instance)
         == Some(ParsedQuery(path, [("responseFormatType", "json"), (key, instance)]))
  {
    var qs := "responseFormatType=json&" + key + "=" + instance;
    assert path + "?responseFormatType=json&" + key + "=" + instance == path + ['?'] + qs;
    SplitFirstOf(path, '?', qs);
    InstanceParamsRoundTrip(key, instance);
  }

  /** The start query names the start action and exactly the given instance. */
  lemma StartQueryTargets(instance: string)
    requires '&' !in instance
    ensures ParseQuery(StartQuery(instance))
         == Some(ParsedQuery(StartPath, [("responseFormatType", "json"), ("serverInstanceNoList.1", instance)]))
  {
    var key := "serverInstanceNoList.1";
    assert '?' !in StartPath && '&' !in key && '=' !in key;
    assert StartQuery(instance) == StartPath + "?responseFormatType=json&" + key + "=" + instance;
    InstanceQueryRoundTrip(StartPath, key, instance);
  }

  /** The stop query names the stop action and exactly the given instance. */
  lemma StopQueryTargets(instance: string)
    requires '&' !in instance
    ensures ParseQuery(StopQuery(instance))
         == Some(ParsedQuery(StopPath, [("responseFormatType", "json"), ("serverInstanceNoList.1", instance)]))
  {
    var key := "serverInstanceNoList.1";
    assert '?' !in StopPath && '&' !in key && '=' !in key;
    assert StopQuery(instance) == StopPath + "?responseFormatType=json&" + key + "=" + instance;
    InstanceQueryRoundTrip(StopPath, key, instance);
  }

  /** The detail query names the detail action and exactly the given instance. */
  lemma DetailQueryTargets(instance: string)
    requires '&' !in instance
    ensures ParseQuery(DetailQuery(instance))
         == Some(ParsedQuery(DetailPath, [("responseFormatType", "json"), ("serverInstanceNo", instance)]))
  {
    var key := "serverInstanceNo";
    assert '?' !in DetailPath && '&' !in key && '=' !in key;
    assert DetailQuery(instance) == DetailPath + "?responseFormatType=json&" + key + "=" + instance;
    InstanceQueryRoundTrip(DetailPath, key, instance);
  }

  /** A start query is never a stop query, whatever the instances. */
  lemma StartNeverStop(a: string, b: string)
    ensures StartQuery(a) != StopQuery(b)
  {
    assert StartPath[14] == 'a' && StopPath[14] == 'o';
    assert StartQuery(a)[14] == StartPath[14];
    assert StopQuery(b)[14] == StopPath[14];
  }

  // ---------------------------------------------------------------- replies

  /** The JSON reply, with every field the programs read made optional:
      a missing field is a `KeyError` when it is read. */
  datatype ResponseError = ResponseError(returnMessage: Option<string>)
  datatype ApiError = ApiError(message: Option<string>, details: Option<string>)
  datatype ServerInstance = ServerInstance(serverInstanceStatusName: Option<string>)
  datatype MethodResult = MethodResult(
    returnCode: Option<string>,
    returnMessage: Option<string>,
    serverInstanceList: Option<seq<ServerInstance>>)
  datatype Response = Response(
    responseError: Option<ResponseError>,
    error: Option<ApiError>,
    results: map<string, MethodResult>)

  /** `obj[key]` for a string field. */
  function Field(o: Option<string>, key: string): (r: Result<string, Exn>)
    ensures r.Ok? <==> o.Some?
    ensures r.Ok? ==> r.value == o.value
    ensures r.Err? ==> r.error == KeyError(key)
  {
    match o
    case None => Err(KeyError(key))
    case Some(v) => Ok(v)
  }

  /** `response_json[resultKey]`. */
  function ResultFor(r: Response, resultKey: string): (m: Result<MethodResult, Exn>)
    ensures m.Ok? <==> resultKey in r.results
    ensures m.Ok? ==> m.value == r.results[resultKey]
    ensures m.Err? ==> m.error == KeyError(resultKey)
  {
    if resultKey in r.results then Ok(r.results[resultKey]) else Err(KeyError(resultKey))
  }

  /** The reply holds neither error object, and the action's own result has
      a `returnCode` other than "0". */
  predicate NonZeroReturnCode(r: Response, resultKey: string)
  {
    r.responseError.None? && r.error.None? && resultKey in r.results
    && r.results[resultKey].returnCode.Some? && r.results[resultKey].returnCode.value != "0"
  }

  /** `result['serverInstanceList'][0]['serverInstanceStatusName']`: the
      first instance's status, or the exception the first failing step
      raises. */
  function FirstInstanceStatus(m: MethodResult): (r: Result<string, Exn>)
    ensures r.Ok? <==> m.serverInstanceList.Some? && |m.serverInstanceList.value| > 0
                       && m.serverInstanceList.value[0].serverInstanceStatusName.Some?
    ensures r.Ok? ==> r.value == m.serverInstanceList.value[0].serverInstanceStatusName.value
    ensures m.serverInstanceList.None? ==> r == Err(KeyError("serverInstanceList"))
    ensures m.serverInstanceList == Some([]) ==> r == Err(IndexError)
    ensures m.serverInstanceList.Some? && |m.serverInstanceList.value| > 0
            && m.serverInstanceList.value[0].serverInstanceStatusName.None?
            ==> r == Err(KeyError("serverInstanceStatusName"))
  {
    match m.serverInstanceList
    case None => Err(KeyError("serverInstanceList"))
    case Some(list) =>
      if list == [] then Err(IndexError)
      else Field(list[0].serverInstanceStatusName, "serverInstanceStatusName")
  }

  // ---------------------------------------------------------------- requests

  /** The API credentials the programs load from their environment. */
  datatype Credentials = Credentials(accessKey: string, secretKey: string)

  /** What lies outside the programs: the keyed hash used for signing, the
      remote API, and the two clock readings (epoch milliseconds) a request
      is built from: the one taken for the timestamp header, and the one
      taken a moment later inside the signing function. */
  datatype Env = Env(sign: Signer, api: Api, headerClock: nat, signClock: nat)

  /** A GET to `BaseUrl + query` with the three authentication headers. */
  datatype Request = Request(query: string, timestamp: string, accessKey: string, signature: string)

  /** What the gateway checks: the signature is the signer applied to the
      canonical string of this very request's query and headers. */
  predicate Authentic(r: Request, secretKey: string, sign: Signer)
  {
    r.signature == sign(secretKey, CanonicalString(r.query, r.timestamp, r.accessKey))
  }

  /** The string the signing function signs: it reads the clock itself. */
  function SignedString(cred: Credentials, env: Env, query: string): string
  {
    CanonicalString(query, Timestamp(env.signClock), cred.accessKey)
  }

  /** The request for `query`: the timestamp header from the first clock
      reading, the signature over the string signed at the second. */
  function SignedRequest(cred: Credentials, env: Env, query: string): (r: Request)
    ensures r.query == query && r.accessKey == cred.accessKey
    ensures r.timestamp == Timestamp(env.headerClock)
    ensures env.headerClock == env.signClock ==> Authentic(r, cred.secretKey, env.sign)
  {
    Request(query, Timestamp(env.headerClock), cred.accessKey,
      env.sign(cred.secretKey, SignedString(cred, env, query)))
  }

  /** The string the gateway rebuilds from the request's headers is the one
      that was signed exactly when both clock readings agree: a millisecond
      boundary between them leaves the header and the signature apart. */
  lemma HeaderMatchesSignedString(cred: Credentials, env: Env, query: string)
    requires '\n' !in cred.accessKey
    ensures var r := SignedRequest(cred, env, query);
      CanonicalString(r.query, r.timestamp, r.accessKey) == SignedString(cred, env, query)
      <==> env.headerClock == env.signClock
  {
    var r := SignedRequest(cred, env, query);
    if CanonicalString(r.query, r.timestamp, r.accessKey) == SignedString(cred, env, query) {
      SignedStringDeterminesInputs(query, env.headerClock, cred.accessKey, query, env.signClock, cred.accessKey);
    }
  }

  /** What a GET can come back with: a transport failure (a
      `RequestException` with its text), or an HTTP reply with a status,
      the text `raise_for_status` would raise, and a parsed JSON body. */
  datatype HttpReply =
    | Unreachable(text: string)
    | Replied(status: nat, errorText: string, body: Response)

  /** The remote API, as a function of the request. */
  type Api = Request -> HttpReply

  /** `requests.get(...)` followed by `raise_for_status()` and `.json()`. */
  function CheckedBody(reply: HttpReply): (r: Result<Response, Exn>)
    ensures r.Ok? <==> reply.Replied? && !(400 <= reply.status < 600)
    ensures r.Ok? ==> r.value == reply.body
    ensures r.Err? ==> r.error.RequestError?
  {
    match reply
    case Unreachable(t) => Err(RequestError(t))
    case Replied(status, errorText, body) =>
      if 400 <= status < 600 then Err(RequestError(errorText)) else Ok(body)
  }

  // ---------------------------------------------------------------- effects

  /** One observable step of a program. */
  datatype Effect =
    | HttpGet(request: Request)             // a signed request to the server API
    | ChatSend(chatId: string, text: string) // a message to a Telegram chat
    | Print(text: string)                   // a line on standard output
    | Crash(exn: Exn)                       // an exception nobody caught ends the program

  /** The queries of the requests in a trace, in order. */
  function Queries(trace: seq<Effect>): seq<string>
  {
    if trace == [] then []
    else (if trace[0].HttpGet? then [trace[0].request.query] else []) + Queries(trace[1..])
  }

  /** The texts of the chat messages in a trace, in order. */
  function ChatTexts(trace: seq<Effect>): seq<string>
  {
    if trace == [] then []
    else (if trace[0].ChatSend? then [trace[0].text] else []) + ChatTexts(trace[1..])
  }

  lemma {:induction false} QueriesAppend(a: seq<Effect>, b: seq<Effect>)
    ensures Queries(a + b) == Queries(a) + Queries(b)
    ensures ChatTexts(a + b) == ChatTexts(a) + ChatTexts(b)
  {
    if a != [] {
      assert (a + b)[1..] == a[1..] + b;
      QueriesAppend(a[1..], b);
    } else {
      assert a + b == b;
    }
  }
}

=== FILE: query.dfy ===
/** Query strings as a server reads them: a path, then `?`, then
    `key=value` pairs separated by `&`. Both HTTP APIs the system calls
    take their parameters this way. */
module UrlQuery {
  import opened Common
  import opened Text

  /** A query read back as the server reads it: path and parameters. */
  datatype ParsedQuery = ParsedQuery(path: string, params: seq<(string, string)>)

  function ParseParams(parts: seq<string>): Option<seq<(string, string)>>
  {
    if parts == [] then Some([])
    else
      var kv := SplitFirst(parts[0], '=');
      var rest := ParseParams(parts[1..]);
      if kv.None? || rest.None? then None else Some([kv.value] + rest.value)
  }

  function ParseQuery(q: string): Option<ParsedQuery>
  {
    match SplitFirst(q, '?')
    case None => None
    case Some((path, qs)) =>
      match ParseParams(SplitOn(qs, '&'))
      case None => None
      case Some(ps) => Some(ParsedQuery(path, ps))
  }

  lemma ParseParamsPair(p1: string, p2: string, kv1: (string, string), kv2: (string, string))
    requires SplitFirst(p1, '=') == Some(kv1) && SplitFirst(p2, '=') == Some(kv2)
    ensures ParseParams([p1, p2]) == Some([kv1, kv2])
  {
    var empty: seq<string> := [];
    assert ParseParams(empty) == Some([]);
    assert [p2][0] == p2 && [p2][1..] == empty;
    assert ParseParams([p2]) == Some([kv2]) by {
      var rest := ParseParams([p2][1..]);
      assert rest == Some([]);
      assert [kv2] + rest.value == [kv2];
    }
    assert [p1, p2][0] == p1 && [p1, p2][1..] == [p2];
    assert [kv1] + [kv2] == [kv1, kv2];
  }

  /** One parameter written as `key=value`. */
  function Pair(kv: (string, string)): string
  {
    kv.0 + "=" + kv.1
  }

  /** Parameters written out and joined with `&`, in order. */
  function EncodeParams(kvs: seq<(string, string)>): string
  {
    JoinWith(seq(|kvs|, i requires 0 <= i < |kvs| => Pair(kvs[i])), '&')
  }

  /** Keys free of `&` and `=`, values free of `&`: what keeps a
      parameter list readable back. */
  predicate PlainParams(kvs: seq<(string, string)>)
  {
    forall i :: 0 <= i < |kvs| ==> '&' !in kvs[i].0 && '=' !in kvs[i].0 && '&' !in kvs[i].1
  }

  lemma {:induction false} ParsePairs(kvs: seq<(string, string)>)
    requires PlainParams(kvs)
    ensures ParseParams(seq(|kvs|, i requires 0 <= i < |kvs| => Pair(kvs[i]))) == Some(kvs)
  {
    var parts := seq(|kvs|, i requires 0 <= i < |kvs| => Pair(kvs[i]));
    if kvs != [] {
      var tail := seq(|kvs| - 1, i requires 0 <= i < |kvs| - 1 => Pair(kvs[1..][i]));
      assert parts[1..] == tail;
      ParsePairs(kvs[1..]);
      assert parts[0] == kvs[0].0 + ['='] + kvs[0].1;
      SplitFirstOf(kvs[0].0, '=', kvs[0].1);
      assert kvs == [kvs[0]] + kvs[1..];
    }
  }

  /** A non-empty list of plain parameters reads back unchanged. */
  lemma ParamsRoundTrip(kvs: seq<(string, string)>)
    requires |kvs| >= 1 && PlainParams(kvs)
    ensures ParseParams(SplitOn(EncodeParams(kvs), '&')) == Some(kvs)
  {
    var parts := seq(|kvs|, i requires 0 <= i < |kvs| => Pair(kvs[i]));
    forall i | 0 <= i < |parts| ensures '&' !in parts[i] {
      assert parts[i] == kvs[i].0 + "=" + kvs[i].1;
    }
    SplitOnJoin(parts, '&');
    ParsePairs(kvs);
  }

  /** `path?params` reads back as that path and those parameters. */
  lemma QueryRoundTrip(path: string, kvs: seq<(string, string)>)
    requires '?' !in path && |kvs| >= 1 && PlainParams(kvs)
    ensures ParseQuery(path + "?" + EncodeParams(kvs)) == Some(ParsedQuery(path, kvs))
  {
    assert path + "?" + EncodeParams(kvs) == path + ['?'] + EncodeParams(kvs);
    SplitFirstOf(path, '?', EncodeParams(kvs));
    ParamsRoundTrip(kvs);
  }

  /** Writing out a list with more than one parameter: the first, `&`,
      then the rest. */
  lemma EncodeParamsCons(kvs: seq<(string, string)>)
    requires |kvs| >= 2
    ensures EncodeParams(kvs) == Pair(kvs[0]) + "&" + EncodeParams(kvs[1..])
  {
    var parts := seq(|kvs|, i requires 0 <= i < |kvs| => Pair(kvs[i]));
    assert parts[1..] == seq(|kvs| - 1, i requires 0 <= i < |kvs| - 1 => Pair(kvs[1..][i]));
  }

  lemma EncodeParams3(kvs: seq<(string, string)>)
    requires |kvs| == 3
    ensures EncodeParams(kvs) == Pair(kvs[0]) + "&" + Pair(kvs[1]) + "&" + Pair(kvs[2])
  {
    EncodeParamsCons(kvs);
    EncodeParamsCons(kvs[1..]);
    assert kvs[1..][1..] == [kvs[2]];
    assert EncodeParams([kvs[2]]) == Pair(kvs[2]);
  }

  lemma EncodeParams4(kvs: seq<(string, string)>)
    requires |kvs| == 4
    ensures EncodeParams(kvs) == Pair(kvs[0]) + "&" + Pair(kvs[1]) + "&" + Pair(kvs[2]) + "&" + Pair(kvs[3])
  {
    EncodeParamsCons(kvs);
    EncodeParams3(kvs[1..]);
  }

  /** A query with three parameters, written out as an f-string would. */
  lemma QueryOfThree(path: string, k1: string, v1: string, k2: string, v2: string, k3: string, v3: string)
    requires '?' !in path && PlainParams([(k1, v1), (k2, v2), (k3, v3)])
    ensures ParseQuery(path + "?" + k1 + "=" + v1 + "&" + k2 + "=" + v2 + "&" + k3 + "=" + v3)
         == Some(ParsedQuery(path, [(k1, v1), (k2, v2), (k3, v3)]))
  {
    var kvs := [(k1, v1), (k2, v2), (k3, v3)];
    EncodeParams3(kvs);
    assert path + "?" + k1 + "=" + v1 + "&" + k2 + "=" + v2 + "&" + k3 + "=" + v3 == path + "?" + EncodeParams(kvs);
    QueryRoundTrip(path, kvs);
  }

  /** A query with four parameters, written out as an f-string would. */
  lemma QueryOfFour(path: string, k1: string, v1: string, k2: string, v2: string, k3: string, v3: string,
                    k4: string, v4: string)
    requires '?' !in path && PlainParams([(k1, v1), (k2, v2), (k3, v3), (k4, v4)])
    ensures ParseQuery(path + "?" + k1 + "=" + v1 + "&" + k2 + "=" + v2 + "&" + k3 + "=" + v3 + "&" + k4 + "=" + v4)
         == Some(ParsedQuery(path, [(k1, v1), (k2, v2), (k3, v3), (k4, v4)]))
  {
    var kvs := [(k1, v1), (k2, v2), (k3, v3), (k4, v4)];
    EncodeParams4(kvs);
    assert path + "?" + k1 + "=" + v1 + "&" + k2 + "=" + v2 + "&" + k3 + "=" + v3 + "&" + k4 + "=" + v4
        == path + "?" + EncodeParams(kvs);
    QueryRoundTrip(path, kvs);
  }
}

=== FILE: script.dfy ===
/** The scheduled script (main.py): `set on|off` starts or stops both
    server instances, `get running|stopped` checks that both are in the
    expected state and reports in the chat only when one is not. */
module Script {
  import opened Common
  import opened Text
  import opened Signing
  import opened NcpApi

  /** The two instances the script manages, in the order it visits them. */
  const Target1: string := "25741251"
  const Target2: string := "26055342"

  const HolidayText: string := "공휴일 종료"
  const UsageText: string := "Usage: python script.py <method> <status>"
  const InvalidSetText: string := "Invalid state. Use 'on' or 'off'."
  const InvalidGetText: string := "Invalid state. Use 'running' or 'stopped'."

  /** The query and result key for a `set`: "on" and only "on" starts,
      every other state stops. */
  function SetAction(target: string, state: string): (a: (string, string))
    ensures a.0 == StartQuery(target) <==> state == "on"
    ensures a.0 == StopQuery(target) <==> state != "on"
    ensures a.1 == StartMethod <==> state == "on"
    ensures a.1 == StopMethod <==> state != "on"
  {
    // The two queries and the two keys differ, so each choice is told apart.
    StartNeverStop(target, target);
    assert StartMethod[2] != StopMethod[2];
    if state == "on" then (StartQuery(target), StartMethod)
    else (StopQuery(target), StopMethod)
  }

  /** Classifies the reply to a start or stop request, checking
      `responseError`, then `error`, then the action's `returnCode`. */
  function ClassifySet(r: Response, resultKey: string): (msg: Result<string, Exn>)
    ensures msg.Err? ==>
              msg.error in [KeyError("returnMessage"), KeyError("message"), KeyError("details"),
                            KeyError(resultKey), KeyError("returnCode")]
    ensures msg.Ok? ==> |msg.value| > 0 && msg.value[0] == '['
    // tag 1: a `responseError`, reported by its `returnMessage`
    ensures r.responseError.Some? ==>
              (msg.Ok? <==> r.responseError.value.returnMessage.Some?)
              && (msg.Ok? ==> msg.value == "[서버 오류 발생1]\nmethod : " + resultKey + "\nmessage : "
                                           + r.responseError.value.returnMessage.value)
    // tag 2: an `error`, reported by its `message`, a space and its `details`
    ensures r.responseError.None? && r.error.Some? ==>
              (msg.Ok? <==> r.error.value.message.Some? && r.error.value.details.Some?)
              && (msg.Ok? ==> msg.value == "[서버 오류 발생2]\nmethod : " + resultKey + "\nmessage : "
                                           + r.error.value.message.value + " " + r.error.value.details.value)
    // tag 3: a non-zero `returnCode`, reported by the result's `returnMessage`
    ensures NonZeroReturnCode(r, resultKey) ==>
              (msg.Ok? <==> r.results[resultKey].returnMessage.Some?)
              && (msg.Ok? ==> msg.value == "[서버 오류 발생3]\nmethod : " + resultKey + "\nmessage : "
                                           + r.results[resultKey].returnMessage.value)
    // a reply without the action's result, or a result without `returnCode`, raises
    ensures r.responseError.None? && r.error.None? && resultKey !in r.results ==> msg == Err(KeyError(resultKey))
    ensures (r.responseError.None? && r.error.None? && resultKey in r.results
             && r.results[resultKey].returnCode.None?) ==> msg == Err(KeyError("returnCode"))
  {
    if r.responseError.Some? then
      match Field(r.responseError.value.returnMessage, "returnMessage")
      case Err(e) => Err(e)
      case Ok(m) => Ok("[서버 오류 발생1]\nmethod : " + resultKey + "\nmessage : " + m)
    else if r.error.Some? then
      match Field(r.error.value.message, "message")
      case Err(e) => Err(e)
      case Ok(m) =>
        match Field(r.error.value.details, "details")
        case Err(e) => Err(e)
        case Ok(d) => Ok("[서버 오류 발생2]\nmethod : " + resultKey + "\nmessage : " + m + " " + d)
    else
      match ResultFor(r, resultKey)
      case Err(e) => Err(e)
      case Ok(res) =>
        match Field(res.returnCode, "returnCode")
        case Err(e) => Err(e)
        case Ok(code) =>
          if code != "0" then
            match Field(res.returnMessage, "returnMessage")
            case Err(e) => Err(e)
            case Ok(m) => Ok("[서버 오류 발생3]\nmethod : " + resultKey + "\nmessage : " + m)
          else Ok("[성공]\nmethod : " + resultKey)
  }

  /** Classifies the reply to a detail request against the expected
      status: the same three error shapes, then "ok" when the reported
      status is the expected one, otherwise a status warning. */
  function ClassifyGet(r: Response, status: string): (msg: Result<string, Exn>)
    ensures msg.Err? ==>
              msg.error in [KeyError("returnMessage"), KeyError("message"), KeyError("details"),
                            KeyError(DetailMethod), KeyError("returnCode"), KeyError("serverInstanceList"),
                            IndexError, KeyError("serverInstanceStatusName")]
    ensures msg.Ok? ==> msg.value == "ok" || (|msg.value| > 0 && msg.value[0] == '[')
    // tag 1: a `responseError`, reported by its `returnMessage`
    ensures r.responseError.Some? ==>
              (msg.Ok? <==> r.responseError.value.returnMessage.Some?)
              && (msg.Ok? ==> msg.value == "[서버 오류 발생1]\nmessage : " + r.responseError.value.returnMessage.value)
    // tag 2: an `error`, reported by its `message`, a space and its `details`
    ensures r.responseError.None? && r.error.Some? ==>
              (msg.Ok? <==> r.error.value.message.Some? && r.error.value.details.Some?)
              && (msg.Ok? ==> msg.value == "[서버 오류 발생2]\nmessage : "
                                           + r.error.value.message.value + " " + r.error.value.details.value)
    // tag 3: a non-zero `returnCode`, reported by the result's `returnMessage`
    ensures NonZeroReturnCode(r, DetailMethod) ==>
              (msg.Ok? <==> r.results[DetailMethod].returnMessage.Some?)
              && (msg.Ok? ==> msg.value == "[서버 오류 발생3]\nmessage : " + r.results[DetailMethod].returnMessage.value)
    // a reply without the detail result, or a result without `returnCode`, raises
    ensures r.responseError.None? && r.error.None? && DetailMethod !in r.results ==> msg == Err(KeyError(DetailMethod))
    ensures (r.responseError.None? && r.error.None? && DetailMethod in r.results
             && r.results[DetailMethod].returnCode.None?) ==> msg == Err(KeyError("returnCode"))
    // the status warning names the expected status, then the current one
    ensures r.responseError.None? && r.error.None? && DetailMethod in r.results
            && r.results[DetailMethod].returnCode == Some("0")
            ==> match FirstInstanceStatus(r.results[DetailMethod])
                case Err(e) => msg == Err(e)
                case Ok(current) =>
                  msg == Ok(if current == status then "ok"
                            else "[서버 상태 체크 필요]\n상태 : " + status + "\n현재상태 : " + current)
  {
    if r.responseError.Some? then
      match Field(r.responseError.value.returnMessage, "returnMessage")
      case Err(e) => Err(e)
      case Ok(m) => Ok("[서버 오류 발생1]\nmessage : " + m)
    else if r.error.Some? then
      match Field(r.error.value.message, "message")
      case Err(e) => Err(e)
      case Ok(m) =>
        match Field(r.error.value.details, "details")
        case Err(e) => Err(e)
        case Ok(d) => Ok("[서버 오류 발생2]\nmessage : " + m + " " + d)
    else
      match ResultFor(r, DetailMethod)
      case Err(e) => Err(e)
      case Ok(res) =>
        match Field(res.returnCode, "returnCode")
        case Err(e) => Err(e)
        case Ok(code) =>
          if code != "0" then
            match Field(res.returnMessage, "returnMessage")
            case Err(e) => Err(e)
            case Ok(m) => Ok("[서버 오류 발생3]\nmessage : " + m)
          else
            match FirstInstanceStatus(res)
            case Err(e) => Err(e)
            case Ok(current) =>
              if status != current then Ok("[서버 상태 체크 필요]\n상태 : " + status + "\n현재상태 : " + current)
              else Ok("ok")
  }

  /** What `setNcpServerState` does for one target: one request, then the
      result printed and sent to the chat, or an exception that ends the
      script (nothing catches it). */
  function SetTargetEffects(cred: Credentials, env: Env, chatId: string, target: string, state: string)
    : (r: seq<Effect>)
    ensures 2 <= |r| <= 3 && r[0] == HttpGet(SignedRequest(cred, env, SetAction(target, state).0))
    ensures |r| == 2 <==> r[1].Crash?
    ensures |r| == 3 ==> r[1].Print? && r[2] == ChatSend(chatId, "[" + target + "]" + r[1].text)
  {
    var (query, resultKey) := SetAction(target, state);
    var req := SignedRequest(cred, env, query);
    [HttpGet(req)] +
    match env.api(req)
    case Unreachable(t) => [Crash(RequestError(t))]
    case Replied(_, _, body) =>
      match ClassifySet(body, resultKey)
      case Err(e) => [Crash(e)]
      case Ok(m) => [Print(m), ChatSend(chatId, "[" + target + "]" + m)]
  }

  /** What `getNcpServerState` does for one target: as for `set`, except
      that the chat message is left out when the result is "ok". */
  function GetTargetEffects(cred: Credentials, env: Env, chatId: string, target: string, status: string)
    : (r: seq<Effect>)
    ensures 2 <= |r| <= 3 && r[0] == HttpGet(SignedRequest(cred, env, DetailQuery(target)))
    ensures r[1].Crash? ==> |r| == 2
    ensures !r[1].Crash? ==> r[1].Print? && (|r| == 3 <==> r[1].text != "ok")
    ensures |r| == 3 ==> r[2] == ChatSend(chatId, "[" + target + "]" + r[1].text)
  {
    var req := SignedRequest(cred, env, DetailQuery(target));
    [HttpGet(req)] +
    match env.api(req)
    case Unreachable(t) => [Crash(RequestError(t))]
    case Replied(_, _, body) =>
      match ClassifyGet(body, status)
      case Err(e) => [Crash(e)]
      case Ok(m) => [Print(m)] + (if m != "ok" then [ChatSend(chatId, "[" + target + "]" + m)] else [])
  }

  /** The script has died of an uncaught exception. */
  predicate Crashed(trace: seq<Effect>)
  {
    |trace| > 0 && trace[|trace| - 1].Crash?
  }

  /** Both targets in order; an exception on the first ends the script
      before the second is touched. */
  function SetRun(cred: Credentials, env: Env, chatId: string, state: string): seq<Effect>
  {
    var first := SetTargetEffects(cred, env, chatId, Target1, state);
    first + (if Crashed(first) then [] else SetTargetEffects(cred, env, chatId, Target2, state))
  }

  /** As `SetRun`, for the status check. */
  function GetRun(cred: Credentials, env: Env, chatId: string, status: string): seq<Effect>
  {
    var first := GetTargetEffects(cred, env, chatId, Target1, status);
    first + (if Crashed(first) then [] else GetTargetEffects(cred, env, chatId, Target2, status))
  }

  /** A `set` invocation the script acts on. */
  predicate ValidSet(holiday: bool, argv: seq<string>)
  {
    !holiday && |argv| == 3 && argv[1] == "set" && argv[2] in ["on", "off"]
  }

  /** A `get` invocation the script acts on. */
  predicate ValidGet(holiday: bool, argv: seq<string>)
  {
    !holiday && |argv| == 3 && argv[1] == "get" && argv[2] in ["running", "stopped"]
  }

  /** The script's main block: the holiday guard, the argument-count check,
      the allowed states per method, then target 1 and target 2 in order.
      `argv` includes the program name. */
  method RunScript(cred: Credentials, env: Env, chatId: string, holiday: bool, argv: seq<string>)
    returns (trace: seq<Effect>)
    ensures holiday ==> trace == [Print(HolidayText)]
    ensures !holiday && |argv| != 3 ==> trace == [Print(UsageText)]
    ensures Queries(trace) != [] ==> ValidSet(holiday, argv) || ValidGet(holiday, argv)
    ensures !holiday && |argv| == 3 && argv[1] == "set" && argv[2] !in ["on", "off"]
            ==> trace == [Print(InvalidSetText)]
    ensures !holiday && |argv| == 3 && argv[1] == "get" && argv[2] !in ["running", "stopped"]
            ==> trace == [Print(InvalidGetText)]
    ensures !holiday && |argv| == 3 && argv[1] != "set" && argv[1] != "get" ==> trace == []
    ensures ValidSet(holiday, argv) ==> trace == SetRun(cred, env, chatId, argv[2])
    ensures ValidGet(holiday, argv) ==> trace == GetRun(cred, env, chatId, argv[2])
  {
    trace := [];
    if holiday {
      trace := [Print(HolidayText)];
      assert Queries(trace[1..]) == [];
      return;
    }
    if |argv| != 3 {
      trace := [Print(UsageText)];
      assert Queries(trace[1..]) == [];
      return;
    }
    var action, status := argv[1], argv[2];
    if action == "set" {
      if status !in ["on", "off"] {
        trace := [Print(InvalidSetText)];
        assert Queries(trace[1..]) == [];
      } else {
        var first := SetTargetEffects(cred, env, chatId, Target1, status);
        trace := first;
        if Crashed(first) {
          assert trace == SetRun(cred, env, chatId, status) by {
            assert first + [] == first;
          }
          return;
        }
        trace := first + SetTargetEffects(cred, env, chatId, Target2, status);
        assert trace == SetRun(cred, env, chatId, status);
        return;
      }
    }
    if action == "get" {
      if status !in ["running", "stopped"] {
        trace := [Print(InvalidGetText)];
        assert Queries(trace[1..]) == [];
      } else {
        var first := GetTargetEffects(cred, env, chatId, Target1, status);
        trace := first;
        if Crashed(first) {
          assert trace == GetRun(cred, env, chatId, status) by {
            assert first + [] == first;
          }
          return;
        }
        trace := first + GetTargetEffects(cred, env, chatId, Target2, status);
        assert trace == GetRun(cred, env, chatId, status);
      }
    }
  }
}

/** What the scheduled script guarantees: which action each state selects,
    how replies are classified, and what each run sends and requests. */
module ScriptProperties {
  import opened Common
  import opened Text
  import opened UrlQuery
  import opened NcpApi
  import opened Script

  /** The success message of a `set`. */
  function SetSuccessText(resultKey: string): string
  {
    "[성공]\nmethod : " + resultKey
  }

  /** A `set` reports success exactly when neither error object is present
      and the action's result carries return code "0". */
  lemma ClassifySetSuccessIff(r: Response, resultKey: string)
    ensures ClassifySet(r, resultKey) == Ok(SetSuccessText(resultKey))
        <==> r.responseError.None? && r.error.None? && resultKey in r.results
             && r.results[resultKey].returnCode == Some("0")
  {
    var c := ClassifySet(r, resultKey);
    if c.Ok? && c.value[1] != SetSuccessText(resultKey)[1] {
      assert c != Ok(SetSuccessText(resultKey));
    }
  }

  /** A status check is quiet ("ok") exactly when neither error object is
      present, the detail result carries return code "0" and its first
      instance reports the expected status. */
  lemma ClassifyGetOkIff(r: Response, status: string)
    ensures ClassifyGet(r, status) == Ok("ok")
        <==> r.responseError.None? && r.error.None? && DetailMethod in r.results
             && r.results[DetailMethod].returnCode == Some("0")
             && FirstInstanceStatus(r.results[DetailMethod]) == Ok(status)
  {
    var c := ClassifyGet(r, status);
    if c.Ok? && c.value[0] == '[' {
      assert c != Ok("ok");
    }
  }

  /** `responseError` decides the message whatever else the reply holds;
      failing that `error` does, and its `message` is read before its
      `details`. */
  lemma ClassifyPrecedence(r: Response, resultKey: string, status: string, e: Option<ApiError>,
                           results: map<string, MethodResult>)
    ensures r.responseError.Some? ==>
      ClassifySet(r.(error := e, results := results), resultKey) == ClassifySet(r, resultKey)
      && ClassifyGet(r.(error := e, results := results), status) == ClassifyGet(r, status)
    ensures r.responseError.None? && r.error.Some? ==>
      ClassifySet(r.(results := results), resultKey) == ClassifySet(r, resultKey)
      && ClassifyGet(r.(results := results), status) == ClassifyGet(r, status)
    ensures r.responseError.None? && r.error.Some? && r.error.value.message.None? ==>
      ClassifySet(r, resultKey) == Err(KeyError("message")) && ClassifyGet(r, status) == Err(KeyError("message"))
  {
  }

  /** A reply to target 1's `set` request that holds no error object but
      lacks the action's result, or whose result lacks `returnCode`, raises
      `KeyError`: nothing is printed or sent, and the script ends before
      target 2 is requested. */
  lemma MalformedSetReplyEndsRun(cred: Credentials, env: Env, chatId: string, state: string)
    ensures var (query, resultKey) := SetAction(Target1, state);
      var reply := env.api(SignedRequest(cred, env, query));
      reply.Replied? && reply.body.responseError.None? && reply.body.error.None?
      && (resultKey !in reply.body.results || reply.body.results[resultKey].returnCode.None?) ==>
        SetRun(cred, env, chatId, state)
        == [HttpGet(SignedRequest(cred, env, query)),
            Crash(if resultKey !in reply.body.results then KeyError(resultKey) else KeyError("returnCode"))]
  {
    var (query, resultKey) := SetAction(Target1, state);
    var first := SetTargetEffects(cred, env, chatId, Target1, state);
    if Crashed(first) {
      assert SetRun(cred, env, chatId, state) == first + [];
    }
  }

  /** The reply to the detail request for one target. */
  function DetailReply(cred: Credentials, env: Env, target: string): HttpReply
  {
    env.api(SignedRequest(cred, env, DetailQuery(target)))
  }

  /** The target is reachable and reports the expected status. */
  predicate ReportsExpected(cred: Credentials, env: Env, target: string, status: string)
  {
    var reply := DetailReply(cred, env, target);
    reply.Replied? && ClassifyGet(reply.body, status) == Ok("ok")
  }

  /** One `set` target: one request for the selected action, then either an
      exception or exactly one chat message, prefixed with the target. */
  lemma SetTargetReports(cred: Credentials, env: Env, chatId: string, target: string, state: string)
    ensures var t := SetTargetEffects(cred, env, chatId, target, state);
      Queries(t) == [SetAction(target, state).0]
      && (Crashed(t) <==> ChatTexts(t) == [])
      && (!Crashed(t) ==> |ChatTexts(t)| == 1 && StartsWith(ChatTexts(t)[0], "[" + target + "]"))
  {
    var t := SetTargetEffects(cred, env, chatId, target, state);
    var (query, resultKey) := SetAction(target, state);
    var req := SignedRequest(cred, env, query);
    assert t == [HttpGet(req)] + t[1..];
    QueriesAppend([HttpGet(req)], t[1..]);
    assert Queries([HttpGet(req)]) == [query];
    assert ChatTexts([HttpGet(req)]) == [];
    assert Queries(t[1..]) == [] by {
      var tail := t[1..];
      assert tail == [tail[0]] + tail[1..];
      QueriesAppend([tail[0]], tail[1..]);
    }
    if !Crashed(t) {
      var m := ClassifySet(env.api(req).body, resultKey).value;
      assert t[1..] == [Print(m), ChatSend(chatId, "[" + target + "]" + m)];
      QueriesAppend([Print(m)], [ChatSend(chatId, "[" + target + "]" + m)]);
      assert ChatTexts(t[1..]) == ["[" + target + "]" + m];
      assert ChatTexts(t)[0][..|"[" + target + "]"|] == "[" + target + "]";
    }
  }

  /** One `get` target: one detail request for it, and a chat message,
      prefixed with the target, unless the script dies or the target
      reports the expected status. */
  lemma GetTargetQuietIff(cred: Credentials, env: Env, chatId: string, target: string, status: string)
    ensures var t := GetTargetEffects(cred, env, chatId, target, status);
      Queries(t) == [DetailQuery(target)]
      && (Crashed(t) <==> !(DetailReply(cred, env, target).Replied?
                            && ClassifyGet(DetailReply(cred, env, target).body, status).Ok?))
      && (ChatTexts(t) == [] <==> Crashed(t) || ReportsExpected(cred, env, target, status))
      && |ChatTexts(t)| <= 1
      && (ChatTexts(t) != [] ==> StartsWith(ChatTexts(t)[0], "[" + target + "]"))
  {
    var t := GetTargetEffects(cred, env, chatId, target, status);
    var req := SignedRequest(cred, env, DetailQuery(target));
    assert t == [HttpGet(req)] + t[1..];
    QueriesAppend([HttpGet(req)], t[1..]);
    assert Queries([HttpGet(req)]) == [DetailQuery(target)];
    assert ChatTexts([HttpGet(req)]) == [];
    var reply := env.api(req);
    if reply.Replied? && ClassifyGet(reply.body, status).Ok? {
      var m := ClassifyGet(reply.body, status).value;
      var chat: seq<Effect> := if m != "ok" then [ChatSend(chatId, "[" + target + "]" + m)] else [];
      assert t[1..] == [Print(m)] + chat;
      QueriesAppend([Print(m)], chat);
      if m != "ok" {
        assert ChatTexts(chat) == ["[" + target + "]" + m];
        assert ChatTexts(t)[0][..|"[" + target + "]"|] == "[" + target + "]";
      }
    } else {
      assert t[1..] == [t[1]];
    }
  }

  /** main.py never calls `raise_for_status`: a reply with an error status
      (4xx or 5xx) is classified like any other, and its message is
      printed and reported to the chat. */
  lemma ErrorStatusStillClassified(cred: Credentials, env: Env, chatId: string, target: string,
                                   state: string, status: string)
    ensures var (query, resultKey) := SetAction(target, state);
      var reply := env.api(SignedRequest(cred, env, query));
      reply.Replied? && 400 <= reply.status < 600 && ClassifySet(reply.body, resultKey).Ok? ==>
        ChatTexts(SetTargetEffects(cred, env, chatId, target, state))
        == ["[" + target + "]" + ClassifySet(reply.body, resultKey).value]
    ensures var reply := env.api(SignedRequest(cred, env, DetailQuery(target)));
      reply.Replied? && 400 <= reply.status < 600 && ClassifyGet(reply.body, status).Ok?
      && ClassifyGet(reply.body, status).value != "ok" ==>
        ChatTexts(GetTargetEffects(cred, env, chatId, target, status))
        == ["[" + target + "]" + ClassifyGet(reply.body, status).value]
  {
    var (query, resultKey) := SetAction(target, state);
    var t := SetTargetEffects(cred, env, chatId, target, state);
    if |t| == 3 {
      assert t == [t[0], t[1], t[2]];
      QueriesAppend([t[0], t[1]], [t[2]]);
      QueriesAppend([t[0]], [t[1]]);
    }
    var g := GetTargetEffects(cred, env, chatId, target, status);
    if |g| == 3 {
      assert g == [g[0], g[1], g[2]];
      QueriesAppend([g[0], g[1]], [g[2]]);
      QueriesAppend([g[0]], [g[1]]);
    }
  }

  /** The path a `set` with this state calls. */
  function SetPath(state: string): string
  {
    if state == "on" then StartPath else StopPath
  }

  /** The query a `set` sends names the selected action and exactly the
      given instance. */
  lemma SetActionTargets(target: string, state: string)
    requires '&' !in target
    ensures ParseQuery(SetAction(target, state).0)
         == Some(ParsedQuery(SetPath(state), [("responseFormatType", "json"), ("serverInstanceNoList.1", target)]))
  {
    if state == "on" {
      StartQueryTargets(target);
    } else {
      StopQueryTargets(target);
    }
  }

  /** A `set` run requests target 1 and then, unless that ended the
      script, target 2, each with the action the state selects. */
  lemma SetRunRequests(cred: Credentials, env: Env, chatId: string, state: string)
    ensures var qs := Queries(SetRun(cred, env, chatId, state));
      (qs == [SetAction(Target1, state).0]
       <==> Crashed(SetTargetEffects(cred, env, chatId, Target1, state)))
      && (qs == [SetAction(Target1, state).0, SetAction(Target2, state).0]
          <==> !Crashed(SetTargetEffects(cred, env, chatId, Target1, state)))
  {
    var first := SetTargetEffects(cred, env, chatId, Target1, state);
    var second := SetTargetEffects(cred, env, chatId, Target2, state);
    SetTargetReports(cred, env, chatId, Target1, state);
    SetTargetReports(cred, env, chatId, Target2, state);
    var rest: seq<Effect> := if Crashed(first) then [] else second;
    QueriesAppend(first, rest);
  }

  /** Every request of a `set` run names the selected action and the
      target it is for: target 1 first, then target 2. */
  lemma SetRunTargets(cred: Credentials, env: Env, chatId: string, state: string)
    ensures var qs := Queries(SetRun(cred, env, chatId, state));
      1 <= |qs| <= 2
      && forall i | 0 <= i < |qs| ::
        ParseQuery(qs[i]) == Some(ParsedQuery(SetPath(state),
          [("responseFormatType", "json"), ("serverInstanceNoList.1", [Target1, Target2][i])]))
  {
    SetRunRequests(cred, env, chatId, state);
    SetActionTargets(Target1, state);
    SetActionTargets(Target2, state);
  }

  /** A `get` run sends nothing to the chat and completes exactly when both
      targets are reachable and report the expected status. */
  lemma GetRunQuietIff(cred: Credentials, env: Env, chatId: string, status: string)
    ensures var run := GetRun(cred, env, chatId, status);
      (ChatTexts(run) == [] && !Crashed(run))
      <==> ReportsExpected(cred, env, Target1, status) && ReportsExpected(cred, env, Target2, status)
  {
    var first := GetTargetEffects(cred, env, chatId, Target1, status);
    var second := GetTargetEffects(cred, env, chatId, Target2, status);
    GetTargetQuietIff(cred, env, chatId, Target1, status);
    GetTargetQuietIff(cred, env, chatId, Target2, status);
    var rest: seq<Effect> := if Crashed(first) then [] else second;
    QueriesAppend(first, rest);
    if !Crashed(first) {
      assert (first + second)[|first + second| - 1] == second[|second| - 1];
    } else {
      assert first + rest == first;
    }
  }

  /** A `get` run queries target 1 first and then, unless that ended the
      script, target 2. */
  lemma GetRunRequests(cred: Credentials, env: Env, chatId: string, status: string)
    ensures var qs := Queries(GetRun(cred, env, chatId, status));
      1 <= |qs| <= 2 && qs[0] == DetailQuery(Target1) && (|qs| == 2 ==> qs[1] == DetailQuery(Target2))
  {
    var first := GetTargetEffects(cred, env, chatId, Target1, status);
    var second := GetTargetEffects(cred, env, chatId, Target2, status);
    GetTargetQuietIff(cred, env, chatId, Target1, status);
    GetTargetQuietIff(cred, env, chatId, Target2, status);
    var rest: seq<Effect> := if Crashed(first) then [] else second;
    QueriesAppend(first, rest);
  }
}

=== FILE: signing.dfy ===
/** Request signing for the NAVER Cloud Platform API gateway (signature
    version 2): the canonical string that is signed, the timestamp it
    carries, and the signature header. The keyed hash itself (HMAC-SHA256,
    then base64) is left abstract as a `Signer`. */
module Signing {
  import opened Common
  import opened Text

  /** base64(HMAC-SHA256(secretKey, message)), taken as given. */
  type Signer = (string, string) -> string

  /** The only HTTP method the system signs. */
  const Method: string := "GET"

  /** The string that is signed: method, space, path with query, newline,
      timestamp, newline, access key. Nothing is lost: when neither the
      timestamp nor the access key holds a newline, the query (whatever it
      holds), the timestamp and the access key are read back from it. */
  function CanonicalString(query: string, timestamp: string, accessKey: string): (s: string)
    ensures '\n' !in timestamp && '\n' !in accessKey ==>
              ParseCanonical(s) == Some((query, timestamp, accessKey))
  {
    var head := query + "\n" + timestamp;
    var s := Method + " " + query + "\n" + timestamp + "\n" + accessKey;
    // Both branches yield `s`; the second only carries the proof of the
    // round trip, which holds when no newline is in the last two parts.
    if '\n' in timestamp || '\n' in accessKey then s
    else
      assert s == (Method + " ") + (head + "\n" + accessKey);
      assert s[|Method| + 1..] == head + "\n" + accessKey;
      SplitLastOf(head, '\n', accessKey);
      SplitLastOf(query, '\n', timestamp);
      s
  }

  /** Reads a canonical string back into its query, timestamp and access key. */
  function ParseCanonical(s: string): Option<(string, string, string)>
  {
    if !StartsWith(s, Method + " ") then None
    else match SplitLast(s[|Method| + 1..], '\n')
      case None => None
      case Some((head, accessKey)) =>
        match SplitLast(head, '\n')
        case None => None
        case Some((query, timestamp)) => Some((query, timestamp, accessKey))
  }

  /** Epoch milliseconds as the decimal string `str(int(time.time() * 1000))`. */
  function Timestamp(epochMillis: nat): (t: string)
    ensures |t| >= 1 && '\n' !in t
  {
    Decimal(epochMillis)
  }

  /** Changing the query, the clock reading or the access key changes the
      signed string, so the signature covers every one of them. */
  lemma SignedStringDeterminesInputs(q1: string, t1: nat, k1: string, q2: string, t2: nat, k2: string)
    requires '\n' !in k1 && '\n' !in k2
    requires CanonicalString(q1, Timestamp(t1), k1) == CanonicalString(q2, Timestamp(t2), k2)
    ensures q1 == q2 && t1 == t2 && k1 == k2
  {
    DecimalRoundTrip(t1);
    DecimalRoundTrip(t2);
  }
}

=== FILE: telegram.dfy ===
/** The Telegram helper the scheduled jobs use (telegram_util.py): plain
    messages through the Bot API's `sendMessage`, one photo through
    `sendPhoto`, and an album through `sendMediaGroup`, where the local
    files are opened, posted and closed again. */
module Telegram {
  import opened Common
  import opened Text
  import opened UrlQuery

  /** urllib.parse.quote_plus, taken as given. */
  type Encoder = string -> string

  /** What `open(path, 'rb')` meets for a path: `None` when it opens,
      otherwise the text of the OSError it raises. */
  type FileSystem = string -> Option<string>

  const ApiBase: string := "https://api.telegram.org/bot"

  // ------------------------------------------------------------ files

  /** A file opened for binary reading. */
  class FileHandle {
    const path: string
    var isOpen: bool

    constructor (path: string)
      ensures this.path == path && isOpen
    {
      this.path := path;
      isOpen := true;
    }

    method Close()
      modifies this
      ensures !isOpen
    {
      isOpen := false;
    }
  }

  /** Closes every handle of the list; nothing else changes. */
  method CloseAll(handles: seq<FileHandle>)
    modifies set j | 0 <= j < |handles| :: handles[j]
    ensures forall j :: 0 <= j < |handles| ==> !handles[j].isOpen
  {
    for i := 0 to |handles|
      invariant forall j :: 0 <= j < i ==> !handles[j].isOpen
    {
      handles[i].Close();
    }
  }

  // ------------------------------------------------------------ requests

  /** A multipart POST to `sendPhoto`: form fields in order, and the
      uploaded file when there is one. */
  datatype PhotoPost = PhotoPost(url: string, data: seq<(string, string)>, file: Option<FileHandle>)

  /** One element of the `media` list of `sendMediaGroup`. */
  datatype MediaItem = MediaItem(kind: string, media: string, caption: string, parseMode: string)

  /** A multipart POST to `sendMediaGroup`: the chat (no `chat_id` field
      at all when it is `None`), the media list, and the `files`
      dictionary (form name to open handle). */
  datatype MediaPost = MediaPost(url: string, chatId: Option<string>, media: seq<MediaItem>,
                                 files: map<string, FileHandle>)

  /** `requests.post(...)` followed by `.json()`: the reply, or the
      exception either raises. */
  type PhotoPoster = PhotoPost -> Result<string, Exn>
  type MediaPoster = MediaPost -> Result<string, Exn>

  // ------------------------------------------------------------ send_photo

  /** The `chat_id` form field: `requests` leaves a field whose value is
      `None` out of the form. */
  function ChatField(chatId: Option<string>): seq<(string, string)>
  {
    if chatId.Some? then [("chat_id", chatId.value)] else []
  }

  // ------------------------------------------------------- send_multiple_photo

  /** The form name of the i-th file, `photo{i}`. */
  function FileKey(i: nat): string
  {
    "photo" + Decimal(i)
  }

  /** The i-th media entry: a photo attached from `photo{i}`, html parse
      mode, and the caption on the first entry only. */
  function MediaEntry(caption: string, i: nat): MediaItem
  {
    MediaItem("photo", "attach://" + FileKey(i), if i == 0 then caption else "", "html")
  }

  /** The media list for n photos, in path order. */
  function MediaList(caption: string, n: nat): (m: seq<MediaItem>)
    ensures |m| == n
  {
    seq(n, i requires 0 <= i < n => MediaEntry(caption, i))
  }

  /** The `files` dictionary for a list of handles, filled in order. */
  function FileMap(handles: seq<FileHandle>): map<string, FileHandle>
  {
    if handles == [] then map[]
    else FileMap(handles[..|handles| - 1])[FileKey(|handles| - 1) := handles[|handles| - 1]]
  }

  /** The first path that fails to open, if any. */
  function FirstFailure(fs: FileSystem, paths: seq<string>): (k: Option<nat>)
    ensures k.Some? ==> k.value < |paths| && fs(paths[k.value]).Some?
                        && forall j :: 0 <= j < k.value ==> fs(paths[j]).None?
    ensures k.None? ==> forall j :: 0 <= j < |paths| ==> fs(paths[j]).None?
  {
    if paths == [] then None
    else if fs(paths[0]).Some? then Some(0)
    else match FirstFailure(fs, paths[1..])
      case None => None
      case Some(k) => Some(k + 1)
  }

  // ------------------------------------------------------------ the helper

  class TelegramUtil {
    const botToken: string
    const chatId: Option<string>
    const chatTestId: string
    const baseUrl: string

    /** Reads the bot token and both chat ids from the environment. The
        token and the test chat id are only ever spliced into f-strings,
        where a missing one reads "None"; the chat id is kept as it is,
        since the form posts leave it out when it is missing. */
    constructor (tokenVar: Option<string>, chatVar: Option<string>, testChatVar: Option<string>)
      ensures botToken == PyStr(tokenVar) && chatId == chatVar && chatTestId == PyStr(testChatVar)
      ensures baseUrl == ApiBase + botToken
    {
      botToken := PyStr(tokenVar);
      chatId := chatVar;
      chatTestId := PyStr(testChatVar);
      baseUrl := ApiBase + PyStr(tokenVar);
    }

    /** The URL `send_message` opens for a message: it addresses
        `sendMessage` of the bot with exactly the chat id, html parse mode,
        link previews off and the encoded text, in that order, as long as
        neither the chat id nor the encoded text carries an `&`. */
    function MessageUrl(quote: Encoder, message: string): (url: string)
      ensures '?' !in baseUrl && '&' !in PyStr(chatId) && '&' !in quote(message) ==>
                ParseQuery(url)
                == Some(ParsedQuery(baseUrl + "/sendMessage",
                     [("chat_id", PyStr(chatId)), ("parse_mode", "html"), ("disable_web_page_preview", "true"),
                      ("text", quote(message))]))
    {
      var url := baseUrl + "/sendMessage" + "?" + "chat_id" + "=" + PyStr(chatId) + "&" + "parse_mode" + "=" + "html"
                 + "&" + "disable_web_page_preview" + "=" + "true" + "&" + "text" + "=" + quote(message);
      // Both branches yield `url`; the first also proves the parse in the
      // postcondition, which holds only when no separator is embedded.
      if '?' !in baseUrl && '&' !in PyStr(chatId) && '&' !in quote(message) then
        QueryOfFour(baseUrl + "/sendMessage", "chat_id", PyStr(chatId), "parse_mode", "html",
                    "disable_web_page_preview", "true", "text", quote(message));
        url
      else url
    }

    /** The URL `send_test_message` opens: the test chat, with html parse
        mode and the encoded text only; link previews are not switched off. */
    function TestMessageUrl(quote: Encoder, message: string): (url: string)
      ensures '?' !in botToken && '&' !in chatTestId && '&' !in quote(message) ==>
                ParseQuery(url)
                == Some(ParsedQuery(ApiBase + botToken + "/sendMessage",
                     [("chat_id", chatTestId), ("parse_mode", "html"), ("text", quote(message))]))
    {
      var url := ApiBase + botToken + "/sendMessage" + "?" + "chat_id" + "=" + chatTestId + "&" + "parse_mode" + "="
                 + "html" + "&" + "text" + "=" + quote(message);
      // As in `MessageUrl`: the branches agree, the first holds the proof.
      if '?' !in botToken && '&' !in chatTestId && '&' !in quote(message) then
        assert '?' !in ApiBase + botToken + "/sendMessage";
        QueryOfThree(ApiBase + botToken + "/sendMessage", "chat_id", chatTestId, "parse_mode", "html",
                     "text", quote(message));
        url
      else url
    }

    /** The request `send_photo` posts for a photo reached by URL: the
        chat, caption, parse mode and photo fields, the chat field only
        when the chat id is set, and no file. */
    function UrlPhotoPost(photo: string, caption: string): (p: PhotoPost)
      ensures p.url == baseUrl + "/sendPhoto" && p.file.None? && |p.data| >= 3
      ensures forall i :: 0 <= i < |p.data| ==> (p.data[i].0 == "chat_id" <==> i == 0 && chatId.Some?)
      ensures chatId.Some? ==> p.data[0] == ("chat_id", chatId.value)
      ensures p.data[|p.data| - 1] == ("photo", photo)
    {
      PhotoPost(baseUrl + "/sendPhoto",
                ChatField(chatId) + [("caption", caption), ("parse_mode", "html"), ("photo", photo)], None)
    }

    /** `send_photo`: a URL is posted as the `photo` field; a local path is
        opened, uploaded as `photo`, and closed again by the `with` block
        whether the post succeeds or raises. */
    method SendPhoto(photo: string, caption: string, fs: FileSystem, post: PhotoPoster)
      returns (outcome: Result<string, Exn>, handle: Option<FileHandle>)
      ensures StartsWith(photo, "http://") || StartsWith(photo, "https://") ==>
                handle.None? && outcome == post(UrlPhotoPost(photo, caption))
      ensures !(StartsWith(photo, "http://") || StartsWith(photo, "https://")) && fs(photo).Some? ==>
                handle.None? && outcome == Err(OSError(photo, fs(photo).value))
      ensures !(StartsWith(photo, "http://") || StartsWith(photo, "https://")) && fs(photo).None? ==>
                handle.Some? && fresh(handle.value) && handle.value.path == photo && !handle.value.isOpen
                && outcome == post(PhotoPost(baseUrl + "/sendPhoto",
                     ChatField(chatId) + [("caption", caption), ("parse_mode", "html")], handle))
    {
      var url := baseUrl + "/sendPhoto";
      var payload := ChatField(chatId) + [("caption", caption), ("parse_mode", "html")];
      if StartsWith(photo, "http://") || StartsWith(photo, "https://") {
        outcome := post(PhotoPost(url, payload + [("photo", photo)], None));
        assert payload + [("photo", photo)] == UrlPhotoPost(photo, caption).data;
        handle := None;
      } else {
        if fs(photo).Some? {
          outcome := Err(OSError(photo, fs(photo).value));
          handle := None;
          return;
        }
        var file := new FileHandle(photo);
        handle := Some(file);
        outcome := post(PhotoPost(url, payload, handle));
        file.Close();
      }
    }

    /** `send_multiple_photo` as written: every path is opened in the
        loop before the `try`, so when the k-th open fails the OSError
        escapes with the k handles opened before it still open. Once all
        paths are open, one post is made and every handle is closed on
        the success path and on the exception path alike. */
    method SendMultiplePhoto(photoPaths: seq<string>, caption: string, fs: FileSystem, post: MediaPoster)
      returns (outcome: Result<string, Exn>, handles: seq<FileHandle>, request: Option<MediaPost>)
      ensures |handles| <= |photoPaths|
      ensures forall j :: 0 <= j < |handles| ==> fresh(handles[j]) && handles[j].path == photoPaths[j]
      ensures FirstFailure(fs, photoPaths).None? ==>
                |handles| == |photoPaths|
                && request == Some(MediaPost(ApiBase + botToken + "/sendMediaGroup", chatId,
                                             MediaList(caption, |photoPaths|), FileMap(handles)))
                && outcome == post(request.value)
                && forall j :: 0 <= j < |handles| ==> !handles[j].isOpen
      ensures FirstFailure(fs, photoPaths).Some? ==>
                var k := FirstFailure(fs, photoPaths).value;
                |handles| == k && request.None?
                && outcome == Err(OSError(photoPaths[k], fs(photoPaths[k]).value))
                && forall j :: 0 <= j < |handles| ==> handles[j].isOpen
    {
      var url := ApiBase + botToken + "/sendMediaGroup";
      var media: seq<MediaItem> := [];
      var files: map<string, FileHandle> := map[];
      handles := [];
      request := None;
      var i := 0;
      while i < |photoPaths|
        invariant 0 <= i <= |photoPaths| && |handles| == i
        invariant forall j :: 0 <= j < i ==> fs(photoPaths[j]).None?
        invariant forall j :: 0 <= j < i ==> fresh(handles[j]) && handles[j].path == photoPaths[j] && handles[j].isOpen
        invariant media == MediaList(caption, i)
        invariant files == FileMap(handles)
      {
        media := media + [MediaEntry(caption, i)];
        if fs(photoPaths[i]).Some? {
          outcome := Err(OSError(photoPaths[i], fs(photoPaths[i]).value));
          assert FirstFailure(fs, photoPaths) == Some(i) by {
            FirstFailureAt(fs, photoPaths, i);
          }
          return;
        }
        var file := new FileHandle(photoPaths[i]);
        files := files[FileKey(i) := file];
        assert (handles + [file])[..i] == handles;
        handles := handles + [file];
        i := i + 1;
      }
      FirstFailureNone(fs, photoPaths);
      request := Some(MediaPost(url, chatId, media, files));
      var response := post(request.value);
      if response.Ok? {
        CloseAll(handles);
        outcome := response;
      } else {
        CloseAll(handles);
        outcome := Err(response.error);
      }
    }

    /** `send_multiple_photo` with the opens moved inside the `try`: a
        failed open closes the handles opened before it, so no handle is
        left open on any path. */
    method SendMultiplePhotoClosing(photoPaths: seq<string>, caption: string, fs: FileSystem, post: MediaPoster)
      returns (outcome: Result<string, Exn>, handles: seq<FileHandle>, request: Option<MediaPost>)
      ensures |handles| <= |photoPaths|
      ensures forall j :: 0 <= j < |handles| ==> fresh(handles[j]) && handles[j].path == photoPaths[j]
      ensures forall j :: 0 <= j < |handles| ==> !handles[j].isOpen
      ensures FirstFailure(fs, photoPaths).None? ==>
                |handles| == |photoPaths|
                && request == Some(MediaPost(ApiBase + botToken + "/sendMediaGroup", chatId,
                                             MediaList(caption, |photoPaths|), FileMap(handles)))
                && outcome == post(request.value)
      ensures FirstFailure(fs, photoPaths).Some? ==>
                var k := FirstFailure(fs, photoPaths).value;
                |handles| == k && request.None?
                && outcome == Err(OSError(photoPaths[k], fs(photoPaths[k]).value))
    {
      var url := ApiBase + botToken + "/sendMediaGroup";
      var media: seq<MediaItem> := [];
      var files: map<string, FileHandle> := map[];
      handles := [];
      request := None;
      var i := 0;
      while i < |photoPaths|
        invariant 0 <= i <= |photoPaths| && |handles| == i
        invariant forall j :: 0 <= j < i ==> fs(photoPaths[j]).None?
        invariant forall j :: 0 <= j < i ==> fresh(handles[j]) && handles[j].path == photoPaths[j] && handles[j].isOpen
        invariant media == MediaList(caption, i)
        invariant files == FileMap(handles)
      {
        media := media + [MediaEntry(caption, i)];
        if fs(photoPaths[i]).Some? {
          CloseAll(handles);
          outcome := Err(OSError(photoPaths[i], fs(photoPaths[i]).value));
          assert FirstFailure(fs, photoPaths) == Some(i) by {
            FirstFailureAt(fs, photoPaths, i);
          }
          return;
        }
        var file := new FileHandle(photoPaths[i]);
        files := files[FileKey(i) := file];
        assert (handles + [file])[..i] == handles;
        handles := handles + [file];
        i := i + 1;
      }
      FirstFailureNone(fs, photoPaths);
      request := Some(MediaPost(url, chatId, media, files));
      outcome := post(request.value);
      CloseAll(handles);
    }
  }

  /** The first failure is the failing path all of whose predecessors open. */
  lemma {:induction false} FirstFailureAt(fs: FileSystem, paths: seq<string>, i: nat)
    requires i < |paths| && fs(paths[i]).Some?
    requires forall j :: 0 <= j < i ==> fs(paths[j]).None?
    ensures FirstFailure(fs, paths) == Some(i)
  {
    if i > 0 {
      FirstFailureAt(fs, paths[1..], i - 1);
    }
  }

  lemma FirstFailureNone(fs: FileSystem, paths: seq<string>)
    requires forall j :: 0 <= j < |paths| ==> fs(paths[j]).None?
    ensures FirstFailure(fs, paths).None?
  {
  }

  /** Distinct indices give distinct form names. */
  lemma FileKeyInjective(i: nat, j: nat)
    requires i != j
    ensures FileKey(i) != FileKey(j)
  {
    DecimalInjective(i, j);
    assert FileKey(i)[5..] == Decimal(i) && FileKey(j)[5..] == Decimal(j);
  }

  /** The form names of the first n files. */
  function FileKeys(n: nat): set<string>
  {
    set i | 0 <= i < n :: FileKey(i)
  }

  /** The first n form names are n distinct names. */
  lemma {:induction false} FileKeysCount(n: nat)
    ensures |FileKeys(n)| == n
  {
    if n > 0 {
      FileKeysCount(n - 1);
      assert FileKeys(n) == FileKeys(n - 1) + {FileKey(n - 1)};
      forall i | 0 <= i < n - 1 ensures FileKey(i) != FileKey(n - 1) {
        FileKeyInjective(i, n - 1);
      }
      assert FileKey(n - 1) !in FileKeys(n - 1);
    }
  }

  /** Each file's form name maps to its handle. */
  lemma {:induction false} FileMapAt(handles: seq<FileHandle>)
    ensures forall i :: 0 <= i < |handles| ==> FileKey(i) in FileMap(handles) && FileMap(handles)[FileKey(i)] == handles[i]
  {
    if handles != [] {
      var n := |handles| - 1;
      var init := handles[..n];
      FileMapAt(init);
      forall i | 0 <= i < n ensures FileKey(i) != FileKey(n) && init[i] == handles[i] {
        FileKeyInjective(i, n);
      }
    }
  }

  /** The keys of `files` are exactly the form names of the files. */
  lemma {:induction false} FileMapKeys(handles: seq<FileHandle>)
    ensures FileMap(handles).Keys == FileKeys(|handles|)
  {
    if handles != [] {
      var n := |handles| - 1;
      FileMapKeys(handles[..n]);
      assert FileKeys(n + 1) == FileKeys(n) + {FileKey(n)};
    }
  }

  /** `files` holds exactly one key `photo{i}` per handle, mapped to the
      i-th handle, and no other key. */
  lemma FileMapShape(handles: seq<FileHandle>)
    ensures forall i :: 0 <= i < |handles| ==> FileKey(i) in FileMap(handles) && FileMap(handles)[FileKey(i)] == handles[i]
    ensures FileMap(handles).Keys == FileKeys(|handles|)
    ensures |FileMap(handles)| == |handles|
  {
    FileMapAt(handles);
    FileMapKeys(handles);
    FileKeysCount(|handles|);
  }

  /** The album request as the source builds it: one entry per path in
      path order, every entry a photo in html mode, the caption on the
      first entry alone, and entry i attached from the file posted under
      `photo{i}`, which is the i-th handle. */
  lemma AttachmentsResolve(caption: string, handles: seq<FileHandle>)
    ensures |MediaList(caption, |handles|)| == |handles|
    ensures var m := MediaList(caption, |handles|);
      forall i :: 0 <= i < |handles| ==>
        m[i].kind == "photo" && m[i].parseMode == "html"
        && m[i].caption == (if i == 0 then caption else "")
        && m[i].media[..9] == "attach://"
        && m[i].media[9..] in FileMap(handles) && FileMap(handles)[m[i].media[9..]] == handles[i]
  {
    FileMapShape(handles);
    var m := MediaList(caption, |handles|);
    forall i | 0 <= i < |handles|
      ensures m[i].media[..9] == "attach://" && m[i].media[9..] == FileKey(i)
    {
      assert m[i].media == "attach://" + FileKey(i);
    }
  }
}

/** Concrete albums for the Telegram helper's album upload. */
module TelegramProperties {
  import opened Common
  import opened Telegram

  /** A concrete album whose second file cannot be opened: as written,
      the OSError escapes with the first file still open. */
  method LeakOnSecondOpen() returns (outcome: Result<string, Exn>, leaked: seq<FileHandle>)
    ensures outcome.Err? && outcome.error.OSError?
    ensures |leaked| == 1 && leaked[0].path == "a.jpg" && leaked[0].isOpen
  {
    var u := new TelegramUtil(Some("token"), Some("chat"), Some("test"));
    var fs: FileSystem := p => if p == "missing.jpg" then Some("No such file or directory") else None;
    var post: MediaPoster := m => Ok("{}");
    assert FirstFailure(fs, ["a.jpg", "missing.jpg"]) == Some(1);
    var request;
    outcome, leaked, request := u.SendMultiplePhoto(["a.jpg", "missing.jpg"], "", fs, post);
  }

  /** The same album with the corrected method: the OSError escapes and
      no handle is left open. */
  method NoLeakOnSecondOpen() returns (outcome: Result<string, Exn>, handles: seq<FileHandle>)
    ensures outcome.Err? && outcome.error.OSError?
    ensures |handles| == 1 && handles[0].path == "a.jpg" && !handles[0].isOpen
  {
    var u := new TelegramUtil(Some("token"), Some("chat"), Some("test"));
    var fs: FileSystem := p => if p == "missing.jpg" then Some("No such file or directory") else None;
    var post: MediaPoster := m => Ok("{}");
    assert FirstFailure(fs, ["a.jpg", "missing.jpg"]) == Some(1);
    var request;
    outcome, handles, request := u.SendMultiplePhotoClosing(["a.jpg", "missing.jpg"], "", fs, post);
  }
}

=== FILE: text.dfy ===
/** The Python string operations the core relies on: `startswith`,
    whitespace `split()`, `lower()`, splitting at a separator, and the
    decimal rendering `str(n)` of a natural number. */
module Text {
  import opened Common

  predicate StartsWith(s: string, prefix: string)
  {
    |prefix| <= |s| && s[..|prefix|] == prefix
  }

  /** The characters `str.split()` with no argument separates on
      (those for which Python's `str.isspace()` holds). */
  predicate IsSpace(c: char)
  {
    || c == ' '
    || ('\t' <= c <= '\r')
    || ('\U{1C}' <= c <= '\U{1F}')
    || c == '\U{85}' || c == '\U{A0}' || c == '\U{1680}'
    || ('\U{2000}' <= c <= '\U{200A}')
    || c == '\U{2028}' || c == '\U{2029}' || c == '\U{202F}'
    || c == '\U{205F}' || c == '\U{3000}'
  }

  /** A token of `split()`: non-empty and free of whitespace. */
  predicate IsWord(w: string)
  {
    |w| > 0 && forall i :: 0 <= i < |w| ==> !IsSpace(w[i])
  }

  /** Length of the longest whitespace-free prefix of `s`. */
  function TokenLen(s: string): (n: nat)
    ensures n <= |s|
    ensures forall i :: 0 <= i < n ==> !IsSpace(s[i])
    ensures n < |s| ==> IsSpace(s[n])
  {
    if s == [] || IsSpace(s[0]) then 0 else 1 + TokenLen(s[1..])
  }

  /** Python's `s.split()`: the maximal runs of non-whitespace, in order. */
  function Words(s: string): (ws: seq<string>)
    ensures forall i :: 0 <= i < |ws| ==> IsWord(ws[i])
    ensures |s| > 0 && !IsSpace(s[0]) ==> |ws| > 0 && ws[0] == s[..TokenLen(s)]
    decreases |s|
  {
    if s == [] then []
    else if IsSpace(s[0]) then Words(s[1..])
    else
      var n := TokenLen(s);
      [s[..n]] + Words(s[n..])
  }

  lemma {:induction false} TokenLenOfWord(w: string, rest: string)
    requires forall i :: 0 <= i < |w| ==> !IsSpace(w[i])
    requires rest == [] || IsSpace(rest[0])
    ensures TokenLen(w + rest) == |w|
  {
    if w == [] {
      assert w + rest == rest;
    } else {
      assert (w + rest)[1..] == w[1..] + rest;
      TokenLenOfWord(w[1..], rest);
    }
  }

  /** A word followed by nothing or by whitespace is the first token. */
  lemma WordsOfWordThen(w: string, rest: string)
    requires IsWord(w)
    requires rest == [] || IsSpace(rest[0])
    ensures Words(w + rest) == [w] + Words(rest)
  {
    var s := w + rest;
    TokenLenOfWord(w, rest);
    assert s[..|w|] == w;
    assert s[|w|..] == rest;
  }

  /** `sep.join(parts)` for a one-character separator. */
  function JoinWith(parts: seq<string>, sep: char): string
  {
    if parts == [] then ""
    else if |parts| == 1 then parts[0]
    else parts[0] + [sep] + JoinWith(parts[1..], sep)
  }

  /** Splitting a space-joined list of words gives the words back. */
  lemma {:induction false} WordsOfJoin(ws: seq<string>)
    requires forall i :: 0 <= i < |ws| ==> IsWord(ws[i])
    ensures Words(JoinWith(ws, ' ')) == ws
  {
    if ws == [] {
    } else if |ws| == 1 {
      WordsOfWordThen(ws[0], "");
      assert ws[0] + "" == ws[0];
    } else {
      var rest := JoinWith(ws[1..], ' ');
      WordsOfJoin(ws[1..]);
      WordsOfWordThen(ws[0], [' '] + rest);
      assert ws[0] + [' '] + rest == ws[0] + ([' '] + rest);
      assert Words([' '] + rest) == Words(rest) by {
        assert ([' '] + rest)[1..] == rest;
      }
    }
  }

  /** A run of whitespace characters, possibly empty. */
  predicate AllSpace(sp: string)
  {
    forall i :: 0 <= i < |sp| ==> IsSpace(sp[i])
  }

  /** Leading whitespace yields no word: `(sp + s).split() == s.split()`. */
  lemma {:induction false} WordsSkipSpace(sp: string, s: string)
    requires AllSpace(sp)
    ensures Words(sp + s) == Words(s)
  {
    if sp == [] {
      assert sp + s == s;
    } else {
      assert (sp + s)[0] == sp[0];
      assert (sp + s)[1..] == sp[1..] + s;
      WordsSkipSpace(sp[1..], s);
    }
  }

  /** A word followed by a whitespace run of any length is one word, and
      the run, however long, only separates it from the rest. */
  lemma WordsOfWordThenSpace(w: string, sp: string, rest: string)
    requires IsWord(w) && |sp| > 0 && AllSpace(sp)
    ensures Words(w + sp + rest) == [w] + Words(rest)
  {
    assert w + sp + rest == w + (sp + rest);
    WordsOfWordThen(w, sp + rest);
    WordsSkipSpace(sp, rest);
  }

  /** Words separated by the given runs: `ws[0] + seps[0] + ws[1] + ...`. */
  function Interleave(ws: seq<string>, seps: seq<string>): string
    requires |ws| >= 1 && |seps| == |ws| - 1
  {
    if |ws| == 1 then ws[0] else ws[0] + seps[0] + Interleave(ws[1..], seps[1..])
  }

  /** The interleaving starts with the first word. */
  lemma {:induction false} InterleaveStarts(ws: seq<string>, seps: seq<string>, trail: string)
    requires |ws| >= 1 && |seps| == |ws| - 1
    ensures StartsWith(Interleave(ws, seps) + trail, ws[0])
  {
    var rest := if |ws| == 1 then trail else seps[0] + Interleave(ws[1..], seps[1..]) + trail;
    assert Interleave(ws, seps) + trail == ws[0] + rest;
    assert (ws[0] + rest)[..|ws[0]|] == ws[0];
  }

  lemma {:induction false} WordsOfInterleave(ws: seq<string>, seps: seq<string>, trail: string)
    requires |ws| >= 1 && |seps| == |ws| - 1
    requires forall i :: 0 <= i < |ws| ==> IsWord(ws[i])
    requires forall i :: 0 <= i < |seps| ==> |seps[i]| > 0 && AllSpace(seps[i])
    requires AllSpace(trail)
    ensures Words(Interleave(ws, seps) + trail) == ws
  {
    if |ws| == 1 {
      WordsOfWordThen(ws[0], trail);
      WordsSkipSpace(trail, "");
      assert trail + "" == trail;
    } else {
      var rest := Interleave(ws[1..], seps[1..]) + trail;
      assert Interleave(ws, seps) + trail == ws[0] + seps[0] + rest;
      WordsOfWordThenSpace(ws[0], seps[0], rest);
      WordsOfInterleave(ws[1..], seps[1..], trail);
      assert ws == [ws[0]] + ws[1..];
    }
  }

  /** `split()` of words separated by non-empty whitespace runs of any
      length and kind, with any whitespace before and after, gives exactly
      those words back. */
  lemma WordsOfSpacedJoin(lead: string, ws: seq<string>, seps: seq<string>, trail: string)
    requires |ws| >= 1 && |seps| == |ws| - 1
    requires forall i :: 0 <= i < |ws| ==> IsWord(ws[i])
    requires forall i :: 0 <= i < |seps| ==> |seps[i]| > 0 && AllSpace(seps[i])
    requires AllSpace(lead) && AllSpace(trail)
    ensures Words(lead + Interleave(ws, seps) + trail) == ws
  {
    assert lead + Interleave(ws, seps) + trail == lead + (Interleave(ws, seps) + trail);
    WordsSkipSpace(lead, Interleave(ws, seps) + trail);
    WordsOfInterleave(ws, seps, trail);
  }

  /** `c.lower()` on the ASCII letters. */
  function LowerChar(c: char): char
  {
    if 'A' <= c <= 'Z' then (c as int - 'A' as int + 'a' as int) as char else c
  }

  /** `s.lower()`: the same length, each character lowered on its own. */
  function Lower(s: string): (r: string)
    ensures |r| == |s|
    ensures forall i :: 0 <= i < |s| ==> r[i] == LowerChar(s[i])
  {
    if s == [] then [] else [LowerChar(s[0])] + Lower(s[1..])
  }

  lemma {:induction false} LowerProperties(s: string)
    ensures Lower(Lower(s)) == Lower(s)
    ensures IsWord(s) <==> IsWord(Lower(s))
  {
    if s != [] {
      LowerProperties(s[1..]);
      assert Lower(s)[1..] == Lower(s[1..]);
    }
  }

  predicate NoUpper(s: string)
  {
    forall i :: 0 <= i < |s| ==> !('A' <= s[i] <= 'Z')
  }

  /** A string with no upper-case letter is its own lower-case form. */
  lemma {:induction false} LowerNoUpper(s: string)
    requires NoUpper(s)
    ensures Lower(s) == s
  {
    if s != [] {
      LowerNoUpper(s[1..]);
    }
  }

  /** `s.split(sep)` for a one-character separator: always at least one
      part, and no part holds the separator. */
  function SplitOn(s: string, sep: char): (parts: seq<string>)
    ensures |parts| >= 1
    ensures forall i :: 0 <= i < |parts| ==> sep !in parts[i]
  {
    if s == [] then [""]
    else
      var rest := SplitOn(s[1..], sep);
      if s[0] == sep then [""] + rest
      else [[s[0]] + rest[0]] + rest[1..]
  }

  lemma {:induction false} SplitOnWithout(p: string, sep: char, tail: string)
    requires sep !in p
    ensures SplitOn(p + tail, sep)[0] == p + SplitOn(tail, sep)[0]
    ensures SplitOn(p + tail, sep)[1..] == SplitOn(tail, sep)[1..]
  {
    if p != [] {
      assert p[0] != sep && sep !in p[1..] by {
        assert p[0] in p;
        assert forall x :: x in p[1..] ==> x in p;
      }
      assert (p + tail)[1..] == p[1..] + tail;
      SplitOnWithout(p[1..], sep, tail);
      var rest := SplitOn(p[1..] + tail, sep);
      assert SplitOn(p + tail, sep) == [[p[0]] + rest[0]] + rest[1..];
      assert [p[0]] + (p[1..] + SplitOn(tail, sep)[0]) == p + SplitOn(tail, sep)[0];
    } else {
      assert p + tail == tail;
    }
  }

  /** Splitting a joined list at the separator gives the list back,
      provided no part holds the separator. */
  lemma {:induction false} SplitOnJoin(parts: seq<string>, sep: char)
    requires |parts| >= 1
    requires forall i :: 0 <= i < |parts| ==> sep !in parts[i]
    ensures SplitOn(JoinWith(parts, sep), sep) == parts
  {
    if |parts| == 1 {
      SplitOnWithout(parts[0], sep, "");
      assert parts[0] + "" == parts[0];
    } else {
      var rest := JoinWith(parts[1..], sep);
      SplitOnJoin(parts[1..], sep);
      SplitOnWithout(parts[0], sep, [sep] + rest);
      assert parts[0] + [sep] + rest == parts[0] + ([sep] + rest);
      assert ([sep] + rest)[1..] == rest;
      assert SplitOn([sep] + rest, sep) == [""] + parts[1..];
      assert JoinWith(parts, sep) == parts[0] + ([sep] + rest);
      var r := SplitOn(JoinWith(parts, sep), sep);
      assert r[0] == parts[0] + "" == parts[0];
      assert r[1..] == parts[1..];
      assert r == [r[0]] + r[1..];
      assert parts == [parts[0]] + parts[1..];
    }
  }

  /** Index of the first `c` in `s`, as `s.find(c)`. */
  function IndexOf(s: string, c: char): (k: Option<nat>)
    ensures k.Some? ==> k.value < |s| && s[k.value] == c && c !in s[..k.value]
    ensures k.None? ==> c !in s
  {
    if s == [] then None
    else if s[0] == c then Some(0)
    else match IndexOf(s[1..], c)
      case None => None
      case Some(j) => Some(j + 1)
  }

  /** `s.partition(c)` when `c` occurs: the text before and after its first occurrence. */
  function SplitFirst(s: string, c: char): Option<(string, string)>
  {
    match IndexOf(s, c)
    case None => None
    case Some(k) => Some((s[..k], s[k + 1..]))
  }

  lemma {:induction false} IndexOfFirst(a: string, c: char, b: string)
    requires c !in a
    ensures IndexOf(a + [c] + b, c) == Some(|a|)
  {
    if a != [] {
      assert (a + [c] + b)[1..] == a[1..] + [c] + b;
      IndexOfFirst(a[1..], c, b);
    }
  }

  lemma SplitFirstOf(a: string, c: char, b: string)
    requires c !in a
    ensures SplitFirst(a + [c] + b, c) == Some((a, b))
  {
    IndexOfFirst(a, c, b);
    assert (a + [c] + b)[..|a|] == a;
    assert (a + [c] + b)[|a| + 1..] == b;
  }

  /** Index of the last `c` in `s`, as `s.rfind(c)`. */
  function LastIndexOf(s: string, c: char): (k: Option<nat>)
    ensures k.Some? ==> k.value < |s| && s[k.value] == c && c !in s[k.value + 1..]
    ensures k.None? ==> c !in s
  {
    if s == [] then None
    else if s[|s| - 1] == c then Some(|s| - 1)
    else
      var k := LastIndexOf(s[..|s| - 1], c);
      assert k.Some? ==> s[k.value + 1..] == s[..|s| - 1][k.value + 1..] + [s[|s| - 1]];
      assert s == s[..|s| - 1] + [s[|s| - 1]];
      k
  }

  /** `s.rpartition(c)` when `c` occurs: the text before and after its last occurrence. */
  function SplitLast(s: string, c: char): Option<(string, string)>
  {
    match LastIndexOf(s, c)
    case None => None
    case Some(k) => Some((s[..k], s[k + 1..]))
  }

  lemma {:induction false} LastIndexOfLast(a: string, c: char, b: string)
    requires c !in b
    ensures LastIndexOf(a + [c] + b, c) == Some(|a|)
  {
    if b != [] {
      assert (a + [c] + b)[..|a| + |b|] == a + [c] + b[..|b| - 1];
      LastIndexOfLast(a, c, b[..|b| - 1]);
    }
  }

  lemma SplitLastOf(a: string, c: char, b: string)
    requires c !in b
    ensures SplitLast(a + [c] + b, c) == Some((a, b))
  {
    LastIndexOfLast(a, c, b);
    assert (a + [c] + b)[..|a|] == a;
    assert (a + [c] + b)[|a| + 1..] == b;
  }

  predicate IsDigit(c: char)
  {
    '0' <= c <= '9'
  }

  predicate AllDigits(s: string)
  {
    forall i :: 0 <= i < |s| ==> IsDigit(s[i])
  }

  function Digit(d: nat): (c: char)
    requires d < 10
    ensures IsDigit(c)
  {
    ('0' as int + d) as char
  }

  function DigitValue(c: char): nat
    requires IsDigit(c)
  {
    c as int - '0' as int
  }

  /** `str(n)` for a natural number: its decimal digits, no leading zero. */
  function Decimal(n: nat): (s: string)
    ensures |s| >= 1 && AllDigits(s)
  {
    if n < 10 then [Digit(n)] else Decimal(n / 10) + [Digit(n % 10)]
  }

  /** `int(s)` for a string of decimal digits. */
  function ParseDecimal(s: string): nat
    requires AllDigits(s)
  {
    if s == [] then 0
    else ParseDecimal(s[..|s| - 1]) * 10 + DigitValue(s[|s| - 1])
  }

  lemma {:induction false} DecimalRoundTrip(n: nat)
    ensures ParseDecimal(Decimal(n)) == n
  {
    if n >= 10 {
      var s := Decimal(n);
      assert s[..|s| - 1] == Decimal(n / 10);
      DecimalRoundTrip(n / 10);
    }
  }

  /** Distinct numbers render as distinct strings. */
  lemma DecimalInjective(m: nat, n: nat)
    requires m != n
    ensures Decimal(m) != Decimal(n)
  {
    DecimalRoundTrip(m);
    DecimalRoundTrip(n);
  }
}
